=== FILE: README.md ===
# ChessApp core rules engine in Dafny

This project models the rules engine of ChessApp (`ChessApp.Core`): positions and their
algebraic names, the 8×8 board and its starting set-up, the move rules of each piece, the
check and checkmate scans, the game controller that validates and commits a move
(`ChessGame.AttemptMove`), the move record and its notation, the numbered move history, and
the PGN export.

The mutable C# objects become immutable values. A `Board` is a sequence of 64 optional pieces
indexed by `(row-1)*8 + (column-1)`. A `Game` is a record, and each mutating method returns
the new game. Where the source simulates a move on the shared board and then writes the old
occupants back, the model returns the restored board too, and proves it equal to the board it
was given (`CheckValidator.WouldBeInCheckAfterMove`, `ChessGame.IsMoveSafeForKing`,
`CheckValidator.CheckmateScan`).

Modules follow the source classes:
- `Positions` is `Position`, and `ChessPositions` is the unused 0-based `ChessPosition`.
- `Pieces` is `Piece` and its symbols.
- `Boards` is `Board`.
- `PieceRules` holds the move rules of `Pawn`, `Rook`, `Bishop`, `Queen` and `Knight`, and `Piece.IsPathClear`.
- `CheckValidator` holds `King` and `CheckValidator`.
- `Moves` holds `Move` and `MoveResult`.
- `ChessGame` and `PgnService` model the classes of the same names.

Behaviour kept exactly as the code has it (each one is visible in a lemma):
- `Bishop.IsValidMove` refuses a move when the path IS clear (`if (IsPathClear(...)) return false`). The bishop therefore moves only across an occupied square, and never to an adjacent square (`PieceRules.BishopMoveIff`, `PieceRules.BishopRefusesClearDiagonals`).
- `GetPgnResult` writes "1-0" for `WhiteCheckMate`, the status in which White is mated (`ChessGame.MatedSideReportedAsWinner`).
- A promoted piece is fresh, so its moved flag is false. The moved flag set after the move therefore lands on the pawn object, which is no longer on the board.
- The `Move` record holds the same `Piece` object that is then marked as moved. The recorded piece therefore carries `hasMoved = true`.
- `IsMoveSafeForKing` simulates a castling as a plain king move. The rook does not move during the safety test.
- `UpdateGameStatus` never produces `Stalmate` or `Draw`.
- The castling pass test starts at the king's own column. Simulating a move from a square onto itself writes the king there and then empties the square. The king is therefore off the board for that scan, and the test of its own square never reports check (`CheckValidator.OwnColumnPassNeverChecks`). The separate `IsKingInCheck` test before the loop still covers the starting square.
- `PgnMetadata` left at its initial values carries Result "*". An export with such metadata therefore writes "*" whatever the game's status.

The recursion between `King.IsValidMove` (castling asks `CheckValidator.IsKingInCheck`) and
`IsKingInCheck` (which asks every enemy piece's `IsValidMove`) is cut at one place. The
check scan asks `AttackMove`: `IsValidMove` with the king limited to its one-square step.
Castling can never reach a square holding a king, because its destination must be empty or hold the castling rook.
`CheckValidator.KingInCheckIff` proves that the scan gives the same answer as the source's scan
with the full `IsValidMove`, castling included.

One behaviour is corrected rather than kept. `Pawn.IsValidEnPassantCapture` compares positions
by reference, so in the source the test never holds and en passant is never played (see
Findings). `ChessGame.AttemptMove` and every game-level member built on it use the
value-comparing test `PieceRules.IsValidEnPassantCapture` instead. `ChessGame.EnPassantExample`
shows the resulting difference on one position.

## Model

| member | source | states |
|---|---|---|
| Positions.NewPosition | ChessApp.Core/Models/Position.cs:13-22 | construction succeeds exactly for rows and columns 1..8, and keeps both numbers; anything else is the invalid-coordinates error |
| Positions.ColumnLetter | ChessApp.Core/Models/Position.cs:40-44 | column 1..8 maps to the letter 'a'..'h' at the same offset |
| Positions.ToString | ChessApp.Core/Models/Position.cs:40-50 | the name is two characters, a file letter then a rank digit, that encode the column and row |
| Positions.Parse | ChessApp.Core/Models/Position.cs:25-37 | null or a length other than 2 is the notation error; a success prints back as the lower-cased input |
| Positions.ParsePrintRoundTrip | ChessApp.Core/Models/Position.cs:25-50 | parsing the printed name of any square gives that square back |
| Positions.PrintInjective | ChessApp.Core/Models/Position.cs:40-50 | two squares have the same name exactly when they are the same square |
| Positions.ParseIgnoresCase | ChessApp.Core/Models/Position.cs:30-32 | parsing is insensitive to upper case: "E4" and "e4" give the same result |
| Positions.ParseAcceptsExactly | ChessApp.Core/Models/Position.cs:25-37 | accepted exactly when two characters, a file a-h in either case then a rank 1-8; a two-character reject is the off-board error |
| Positions.ParseExamples | ChessApp.Core/Models/Position.cs:25-37 | "E4" is row 4 column 5; "i9" and "a0" are off the board; "" and "e10" are malformed |
| ChessPositions.ConvertToAlgebraic | ChessApp.Core/Models/ChessPosition.cs:38-42 | the name of the 0-based column and the row is a file letter and a rank digit encoding them |
| ChessPositions.NewChessPosition | ChessApp.Core/Models/ChessPosition.cs:11-20 | construction succeeds exactly for rows 1..8 and columns 0..7, keeping both |
| ChessPositions.Parse | ChessApp.Core/Models/ChessPosition.cs:23-35 | null or wrong length is the notation error; a success is on the board, keeps the lower-cased input as its text, and that text is its own conversion |
| ChessPositions.ParseAcceptsExactly | ChessApp.Core/Models/ChessPosition.cs:25-34 | accepted exactly when two characters, a file a-h in either case then a rank 1-8; every other two-character text is the off-board error |
| ChessPositions.ParseExamples | ChessApp.Core/Models/ChessPosition.cs:25-34 | "E4" is row 4 column 4 stored as "e4", "h8" is row 8 column 7, "i1" is off the board and "e10" is malformed |
| ChessPositions.ParsePrintRoundTrip | ChessApp.Core/Models/ChessPosition.cs:23-48 | parsing the printed name of a constructed position gives the same position |
| ChessPositions.EqualsIsEquivalence | ChessApp.Core/Models/ChessPosition.cs:51-57 | the overridden equality is reflexive, symmetric and transitive |
| ChessPositions.HashAgreesWithEquals | ChessApp.Core/Models/ChessPosition.cs:59-63 | equal positions hash alike, and on the board equal hashes mean equal positions |
| Enums.ActiveStatuses | ChessApp.Core/Game/ChessGame.cs:67-71 | moves are accepted in exactly InProgress, WhiteCheck and BlackCheck; the four other statuses end the game |
| Pieces.NewPiece | ChessApp.Core/Pieces/Piece.cs:16-22 | a new piece has the given colour and kind and has not moved |
| Pieces.Symbol | ChessApp.Core/Pieces/Piece.cs:29-40 | the symbol is empty for a pawn and one letter for every other kind |
| Pieces.SymbolRoundTrip | ChessApp.Core/Pieces/Piece.cs:29-40 | the symbol identifies the kind: reading it back gives the kind (a pawn's empty symbol included) |
| Boards.GetPieceAt | ChessApp.Core/Models/Board.cs:72-79 | a position off the board holds nothing |
| Boards.PlacePieceAt | ChessApp.Core/Models/Board.cs:82-85 | the square then holds the piece given, and every other square is unchanged |
| Boards.PlaceSameIsIdentity | ChessApp.Core/Models/Board.cs:82-85 | writing a square's own occupant back leaves the board unchanged |
| Boards.PlaceOverwrites | ChessApp.Core/Models/Board.cs:82-85 | the second of two writes to one square is the one that stays |
| Boards.InitialBoardContents | ChessApp.Core/Models/Board.cs:25-69 | every square of the starting board holds its initial occupant: pawns on rows 2 and 7, R N B Q K B N R on rows 1 and 8 |
| Boards.InitialKings | ChessApp.Core/Models/Board.cs:25-69 | each colour's king starts on column 5 of its home row and nowhere else |
| Boards.InitialMirror | ChessApp.Core/Models/Board.cs:25-69 | the starting board is symmetric: row r and row 9-r hold the same kinds in opposite colours |
| Boards.InitialRowsAndFlags | ChessApp.Core/Models/Board.cs:25-69 | rows 3 to 6 start empty, every other square is occupied, and no starting piece has moved |
| Boards.InitialPieceCount | ChessApp.Core/Models/Board.cs:25-69 | the starting board holds 32 pieces |
| PieceRules.PathClearIff | ChessApp.Core/Pieces/Piece.cs:43-67 | the path walk succeeds exactly when every square strictly between the ends of a line is empty |
| PieceRules.PathClearWhenAdjacent | ChessApp.Core/Pieces/Piece.cs:43-67 | a path of at most one step is always clear |
| PieceRules.PawnMoveCases | ChessApp.Core/Pieces/Pawn.cs:12-38 | a pawn move is exactly: a step forward onto an empty square, a first double step over two empty squares, or a diagonal step onto an enemy piece |
| PieceRules.EnPassantAsWrittenNeverFires | ChessApp.Core/Pieces/Pawn.cs:41-68 | the en-passant test as written is false on every board |
| PieceRules.EnPassantCounterexample | ChessApp.Core/Pieces/Pawn.cs:41-68 | after d7-d5, a White pawn on e5 capturing onto d6 is accepted by the intended test and refused by the test as written |
| PieceRules.EnPassantShape | ChessApp.Core/Pieces/Pawn.cs:41-68 | an accepted en-passant capture starts on the fifth rank of the mover and steps one square diagonally forward onto an empty square. The square passed over holds an enemy pawn, and that square is the last double-step destination |
| PieceRules.PromotionIsFarRank | ChessApp.Core/Pieces/Pawn.cs:70-74 | a promotion square is exactly the last rank in the pawn's direction of travel |
| PieceRules.DoubleMoveIsTwoSquareAdvance | ChessApp.Core/Pieces/Pawn.cs:77-89 | a double move is legal exactly when the two squares ahead are empty; it never promotes |
| PieceRules.RookMoveIff | ChessApp.Core/Pieces/Rook.cs:20-36 | a rook move is exactly a straight line with every square between empty onto an empty or enemy square |
| PieceRules.RookIgnoresHasMoved | ChessApp.Core/Pieces/Rook.cs:20-36 | the rook rule does not depend on whether the rook has moved |
| PieceRules.BishopMoveIff | ChessApp.Core/Pieces/Bishop.cs:19-35 | a bishop move is exactly a diagonal with some occupied square between, onto an empty or enemy square |
| PieceRules.BishopRefusesClearDiagonals | ChessApp.Core/Pieces/Bishop.cs:29-30 | a diagonal with nothing between is refused, adjacent squares included |
| PieceRules.QueenMoveIff | ChessApp.Core/Pieces/Queen.cs:18-36 | a queen move is exactly a straight line or diagonal with every square between empty onto an empty or enemy square |
| PieceRules.QueenCoversRook | ChessApp.Core/Pieces/Queen.cs:18-36 | every move a rook may make, a queen of its colour on the same square may make |
| PieceRules.QueenRefusesKnightJumps | ChessApp.Core/Pieces/Queen.cs:26-27 | a two-by-one jump is never a queen move |
| PieceRules.KnightJumps | ChessApp.Core/Pieces/Knight.cs:19-33 | a knight move depends only on the destination square, not on anything in between |
| PieceRules.OwnDestinationRefused | ChessApp.Core/Pieces/Rook.cs:33-35 | no pawn, rook, bishop, queen or knight may land on a square held by its own colour |
| PieceRules.CastlingBlockedByOccupiedTarget | ChessApp.Core/Pieces/King.cs:42-62 | castling onto a square held by anything but a rook fails its rook or empty-path precondition |
| PieceRules.CastlingPathLength | ChessApp.Core/Pieces/King.cs:56-62 | from the home square, kingside needs columns 6 and 7 empty and queenside needs 2, 3 and 4 empty |
| CheckValidator.FindKingFrom | ChessApp.Core/Game/CheckValidator.cs:45-61 | the scan from index k returns the first square at or after k holding the king of that colour, or reports none from k on |
| CheckValidator.FindKingPosition | ChessApp.Core/Game/CheckValidator.cs:45-61 | the result holds the king, no earlier square in row-major order does, and none is returned exactly when no square holds it |
| CheckValidator.WouldBeInCheckAfterMove | ChessApp.Core/Pieces/King.cs:79-93 | the answer is whether the king's colour is in check with the king on `to` and `from` emptied, and the board is restored afterwards whenever the king stood on `from` |
| CheckValidator.AttackMoveIsValidMove | ChessApp.Core/Pieces/King.cs:20-40 | every attack move is a valid move, and the only valid moves that are not attack moves are castlings of an unmoved king |
| CheckValidator.AttackMoveAgrees | ChessApp.Core/Pieces/King.cs:20-77 | onto a square held by anything but a rook, the full move rule and the attack rule agree |
| CheckValidator.KingInCheckIff | ChessApp.Core/Game/CheckValidator.cs:15-42 | a king is in check exactly when it is on the board and some enemy piece's full IsValidMove reaches it |
| CheckValidator.KingMoveCases | ChessApp.Core/Pieces/King.cs:20-40 | a king moves one square onto an empty or enemy square, or castles two columns along its row when unmoved and every castling condition holds, and nothing else |
| CheckValidator.OwnColumnPassNeverChecks | ChessApp.Core/Pieces/King.cs:69-74 | the first square of the castling pass test, the king's own square, is never reported as check when it is that colour's only king |
| CheckValidator.SimulateMove | ChessApp.Core/Game/CheckValidator.cs:113-122 | returns the piece on `to`; the mover lands on `to`, `from` empties, and nothing else changes |
| CheckValidator.RevertUndoesSimulate | ChessApp.Core/Game/CheckValidator.cs:113-130 | reverting a simulated move gives back the board it started from |
| CheckValidator.CheckmateScan | ChessApp.Core/Game/CheckValidator.cs:64-110 | the loop answers exactly checkmate (in check, and no valid move of that colour leaves the king safe) and leaves the board as it found it |
| CheckValidator.EscapeScan | ChessApp.Core/Game/CheckValidator.cs:75-105 | the scan of one square answers exactly whether the piece of that colour there has a valid move after which the king is not in check, and the board comes back unchanged |
| CheckValidator.NoEscapeBelowAll | ChessApp.Core/Game/CheckValidator.cs:71-109 | finishing the square-by-square scan without an escape means no square below the bound has one, and conversely |
| Moves.ToAlgebraicNotation | ChessApp.Core/Models/Move.cs:30-40 | the notation is the destination's name, preceded by the piece letter except for a pawn |
| Moves.NewMove | ChessApp.Core/Models/Move.cs:20-28 | a new move keeps squares, piece and capture as given, fixes the notation, and starts with every flag cleared |
| Moves.FlagsKeepNotation | ChessApp.Core/Models/Move.cs:42-45 | setting any flags later does not change the text of the move |
| Moves.NotationRoundTrip | ChessApp.Core/Models/Move.cs:30-40 | reading the notation back gives the moving kind and the destination |
| Moves.NotationInjective | ChessApp.Core/Models/Move.cs:30-40 | moves with equal notation move the same kind to the same square |
| Moves.NotationAlphabet | ChessApp.Core/Models/Move.cs:30-40 | the notation uses only piece letters, files and ranks: no capture, check, mate, promotion or castling marks |
| Moves.Success | ChessApp.Core/Models/MoveResult.cs:22-25 | a success carries its message and the move |
| Moves.Failure | ChessApp.Core/Models/MoveResult.cs:27-30 | a failure carries its message and no move |
| Moves.FactoriesDisjoint | ChessApp.Core/Models/MoveResult.cs:15-30 | no success equals a failure, and only a success carries a move |
| ChessGame.NewGame | ChessApp.Core/Game/ChessGame.cs:24-34 | a new game has the starting board, White to move, status in progress, no history, no en-passant square and the given names |
| ChessGame.ResetGame | ChessApp.Core/Game/ChessGame.cs:437-445 | a reset game is a new game that keeps the player names |
| ChessGame.PgnResultMarksFinishedGames | ChessApp.Core/Game/ChessGame.cs:36-45 | the token is "*" exactly while the game is active, is one of the four PGN tokens, is "1/2-1/2" exactly for stalemate or draw, "1-0" exactly for White's checkmate and "0-1" exactly for Black's checkmate |
| ChessGame.GetValidPromotionOptions | ChessApp.Core/Game/ChessGame.cs:367-376 | the options are four, queen first, and are exactly the kinds the validity test accepts |
| ChessGame.OfferedOptionsAreHonoured | ChessApp.Core/Game/ChessGame.cs:346-376 | every offered option is created as the kind chosen |
| ChessGame.CreatePromotedPiece | ChessApp.Core/Game/ChessGame.cs:346-356 | the new piece has the colour given, has not moved, is of the chosen kind when that kind is valid, and is a queen otherwise |
| ChessGame.ExecutePromotion | ChessApp.Core/Game/ChessGame.cs:325-344 | a pawn on the square is replaced by the promoted piece; with no piece or a non-pawn the board is unchanged; no other square changes |
| ChessGame.CastlingRelocatesRook | ChessApp.Core/Game/ChessGame.cs:305-323 | the rook from the corner on the king's side lands on the square the king passed over and is marked as moved, and the corner empties |
| ChessGame.CastlingFromHomeSquare | ChessApp.Core/Game/ChessGame.cs:305-323 | from column 5 the rook goes h to f on the kingside and a to d on the queenside |
| ChessGame.UpdateLastPawnDoubleMove | ChessApp.Core/Game/ChessGame.cs:285-303 | a square is remembered exactly after a pawn's double move, and it is the destination |
| ChessGame.SetLastPawnDoubleMoveForTesting | ChessApp.Core/Game/ChessGame.cs:59-62 | only the remembered square changes, to the one given |
| ChessGame.UpdateGameStatus | ChessApp.Core/Game/ChessGame.cs:378-409 | the status computed is never stalemate or draw |
| ChessGame.StatusMeaning | ChessApp.Core/Game/ChessGame.cs:378-409 | White mated gives WhiteCheckMate, then Black mated, then White in check, then Black in check, else in progress; the game stays active exactly when neither side is mated |
| ChessGame.MatedSideReportedAsWinner | ChessApp.Core/Game/ChessGame.cs:36-45 | with White mated the result token is "1-0" |
| ChessGame.IsMoveSafeForKing | ChessApp.Core/Game/ChessGame.cs:150-201 | answers whether the mover's king is safe on the simulated board, and returns the board exactly as it was given |
| ChessGame.SafetyBoard | ChessApp.Core/Game/ChessGame.cs:157-190 | the simulated board differs from the real one only on `from`, `to` and, for an en-passant capture, the passed pawn's square; `from` ends empty; `to` holds the unmarked mover, or the chosen promoted piece for a pawn reaching the last rank with a choice given; an en-passant capture empties the passed pawn's square |
| ChessGame.PromotionChoice | ChessApp.Core/Game/ChessGame.cs:214-218 | a promotion always records a kind, a promotion made without a choice records a queen, and an explicit choice is kept |
| ChessGame.CommitBoardEffects | ChessApp.Core/Game/ChessGame.cs:227-261 | an ordinary move carries the marked mover to `to`, empties `from` and touches nothing else; a promotion leaves the promoted piece on `to` and changes only `from` and `to`; en passant empties the passed pawn's square, leaves the marked pawn on `to` and changes only `from`, `to` and that square |
| ChessGame.CommitCastlingEffects | ChessApp.Core/Game/ChessGame.cs:240-261 | a castling king ends marked on `to`, the piece from the rook's corner ends marked on the square the king passed over, `from` and the corner end empty, and every other square is unchanged |
| ChessGame.ExecuteMove | ChessApp.Core/Game/ChessGame.cs:203-283 | success; the move is appended to the history and the turn passes. The en-passant square follows the double-move rule and the status is recomputed. The check and mate flags match the new board, the names are kept, and the record holds the squares, the marked piece, the capture, the notation and the flags |
| ChessGame.AttemptMove | ChessApp.Core/Game/ChessGame.cs:65-147 | a rejected attempt leaves the game unchanged and carries no move; an accepted one carries the success message and the move |
| ChessGame.AttemptMoveSucceedsIff | ChessApp.Core/Game/ChessGame.cs:65-147 | an attempt succeeds exactly when all of these hold: the game is active, both squares are on the board, the origin holds the mover's piece, the promotion choice is present and valid, the move is an en-passant capture or a valid non-self-capture, and the king stays safe |
| ChessGame.FinishedGameRefusesEveryMove | ChessApp.Core/Game/ChessGame.cs:67-71 | a finished game refuses every move with "El juego ha terminado" and is unchanged |
| ChessGame.OffBoardRefusedSecond | ChessApp.Core/Game/ChessGame.cs:73-77 | in an active game an off-board square is refused with "Posicion fuera del tablero" |
| ChessGame.OriginRefusals | ChessApp.Core/Game/ChessGame.cs:79-90 | an empty origin and an opponent's piece are refused with their own messages |
| ChessGame.PromotionChecksComeFirst | ChessApp.Core/Game/ChessGame.cs:92-105 | a promotion without a choice, or any invalid choice, is refused before the move itself is judged |
| ChessGame.AttemptMoveEffects | ChessApp.Core/Game/ChessGame.cs:65-147 | an accepted attempt had both squares on the board and the mover's piece on the origin. It appends one move recording the squares, the marked piece and the notation, and passes the turn. It applies the double-move rule and sets the check flag, the mate flag and the status from the new board. The names are kept. The board afterwards is the committed board: the en-passant victim removed, the marked mover moved, the castling rook moved and the promotion applied |
| ChessGame.LateRefusals | ChessApp.Core/Game/ChessGame.cs:121-143 | after the promotion checks: a move the piece cannot make (other than en passant) is refused as invalid, then a capture of an own piece, then a move that leaves the king in check, each with its message and the game unchanged |
| ChessGame.EnPassantExample | ChessApp.Core/Game/ChessGame.cs:108-130 | on e5xd6 after d7-d5 the reference comparison fails and the pawn rule refuses the move, so the source reports an invalid move; the model with value comparison makes the move and empties d5 |
| ChessGame.FormattedMoveHistory | ChessApp.Core/Game/ChessGame.cs:412-434 | one entry per full move: entry k is "k+1. " and White's notation, followed by " " and Black's notation when Black has replied |
| ChessGame.GetFormattedMoveHistory | ChessApp.Core/Game/ChessGame.cs:412-434 | the loop that appends White's moves and extends the entry with Black's computes the formatted history |
| ChessGame.RecordMove | ChessApp.Core/Game/ChessGame.cs:418-431 | one pass turns the list for the first i moves into the list for the first i+1 |
| ChessGame.FormattedHistoryWhiteStep | ChessApp.Core/Game/ChessGame.cs:423-426 | a White move adds a new last entry "n. move" numbered i/2+1 and keeps every earlier entry |
| ChessGame.FormattedHistoryBlackStep | ChessApp.Core/Game/ChessGame.cs:427-431 | a Black move appends " move" to the last entry and keeps every earlier entry |
| ChessGame.FormattedHistoryExample | ChessApp.Core/Game/ChessGame.cs:412-434 | e4 e5 Nf3 Nc6 is formatted as "1. e4 e5" and "2. Nf3 Nc6" |
| PgnService.GetPgnMetadata | ChessApp.Core/Game/ChessGame.cs:47-56 | the game's metadata has its player names, its start date and its result token; Event, Site and Round keep "Casual Game", "ChessApp" and "?", and WhiteElo, BlackElo, ECO and Opening keep "?" |
| PgnService.OwnMetadataHeaders | ChessApp.Core/Game/ChessGame.cs:47-56 | exporting with the game's own metadata writes its result token, names and start date |
| PgnService.HeaderValues | ChessApp.Core/Services/PgnService.cs:17-29 | eleven values, the seventh being the result also written at the end |
| PgnService.NullMetadataFallbacks | ChessApp.Core/Services/PgnService.cs:17-29 | a null field falls back to "?", today's date, the game's names or the game's result token |
| PgnService.DefaultMetadataHidesResult | ChessApp.Core/Services/PgnService.cs:88-101 | metadata at its initial values reports "*" whatever the game's status |
| PgnService.ReadHeaderRoundTrip | ChessApp.Core/Services/PgnService.cs:47-50 | a header line reads back as its key and value, even when the value holds quotes or spaces |
| PgnService.ReadHeadersRoundTrip | ChessApp.Core/Services/PgnService.cs:47-50 | consecutive header lines read back as the pairs written, in order, and the text after them is left over |
| PgnService.HeaderPairs | ChessApp.Core/Services/PgnService.cs:17-29 | the eleven pairs couple Event, Site, Date, Round, White, Black, Result, WhiteElo, BlackElo, ECO, Opening with their values |
| PgnService.ExportToPgn | ChessApp.Core/Services/PgnService.cs:12-45 | the export ends with the result text |
| PgnService.ExportHeaders | ChessApp.Core/Services/PgnService.cs:12-45 | read back, the export starts with exactly eleven headers in roster order, the Result header equals the closing result, and the rest is the empty line, the moves and the result |
| PgnService.BuildPgn | ChessApp.Core/Services/PgnService.cs:12-45 | appending header lines, the empty line, each entry with a space, then the result builds the export |
| PgnService.AppendMoveText | ChessApp.Core/Services/PgnService.cs:34-39 | the loop appends every entry followed by one space |
| PgnService.MoveTextAppend | ChessApp.Core/Services/PgnService.cs:35-39 | one more entry adds that entry and a space at the end of the movetext |
| PgnService.ImportFromPgn | ChessApp.Core/Services/PgnService.cs:52-60 | any text imports as a new game with the default names |
| PgnService.ImportIgnoresText | ChessApp.Core/Services/PgnService.cs:52-60 | the import does not depend on its text, so importing an export loses every move |

## Left out

- PgnService.ExportToPgn: `StringBuilder.AppendLine` writes `Environment.NewLine`, which is "\r\n" on Windows; the model always writes "\n".
- Console output, logging and the `Timestamp` and `StartTime` clock reads. Today's date and the start date are parameters (`PgnService.ExportToPgn`, `PgnService.GetPgnMetadata`).
- `SaveGameToFile`, `LoadGameFromFile` and `GetPgnFiles` are file-system I/O. They only wrap `ExportToPgn` and `ImportFromPgn`.
- `GameManager`, `Program.cs`, `StockfishService` and `IAnalysisService` are outside the rules engine. They are not part of this model.
- Object identity: pieces and positions are values. Two pieces that are equal as values but are distinct C# objects are not distinguished. This matters only for the en-passant comparison, which is listed under Findings.
- Setters of `Position.Row`, `Position.Column` and `AlgebraicNotation`, and of `Piece.Color` and `Piece.Type`. The core never calls them after construction.
- Positions.Parse: `string.ToLower` is culture-aware; only ASCII upper case is lowered here. `Length` counts UTF-16 code units in C#, while a Dafny string counts Unicode scalar values: a single character outside the Basic Multilingual Plane has length 2 in the source and reaches the off-board test, but is the notation error here.
- ChessPositions.Parse: the same two differences as `Positions.Parse` (ASCII-only lower-casing, and length in scalar values rather than UTF-16 code units).
- ChessPositions.HashAgreesWithEquals: `(Row * 10) + Column` is computed on unbounded integers. Int32 overflow cannot happen for values set through the constructors.
- CheckValidator.CastlingPassSafe: the castling loop's order of visits is stated as a quantifier over the visited columns. The loop stops at the first checked square, which does not change the answer.
- ChessGame.AttemptMove: uses the corrected en-passant test `PieceRules.IsValidEnPassantCapture` (value comparison), not the reference comparison of Pawn.cs:67, which never holds. The source therefore never plays en passant: such a capture falls through to `IsValidMove` and is refused with "Movimiento no valido para esta pieza" (`ChessGame.EnPassantExample`). The model plays it and removes the passed pawn.
- ChessGame.AttemptMoveSucceedsIff: its en-passant alternative describes the corrected test. In the source that alternative never holds, so acceptance there requires `IsValidMove` and no own capture in every case.
- CheckValidator.IsKingInCheck: the scan asks `AttackMove`, not the full `IsValidMove`. `CheckValidator.KingInCheckIff` proves the two give the same answer.
- CheckValidator.CheckmateScan: the inner check scans use the model's `IsKingInCheck`, not a simulation over a mutable board. It returns the board as given, as the source's revert does.
- PieceRules.IsPathClear: the source constructs a `Position` for each square it visits, and that constructor throws off the board. Any aligned path between two squares stays on the board, so the throw cannot happen and is not modelled.

## Findings

| source | as written | input that shows it | evidently intended | confidence | as-written member | corrected member |
|---|---|---|---|---|---|---|
| ChessApp.Core/Pieces/Pawn.cs:60-67 | `enemyPawnPosition.Equals(lastPawnDoubleMove)`, where `Position` does not override `Equals`: a reference comparison between a freshly allocated object and the stored one, which is never true, so en passant is never accepted | White pawn on e5, Black pawn on d5 just arrived from d7 (LastPawnDoubleMove = d5), White plays e5-d6 | compare the rows and columns of the two positions | high; not executed | PieceRules.IsValidEnPassantCaptureAsWritten, PieceRules.EnPassantCounterexample | PieceRules.IsValidEnPassantCapture, PieceRules.EnPassantShape |

=== FILE: boards.dfy ===
/**
 * The 8x8 board (ChessApp.Core/Models/Board.cs) as an immutable value: 64 optional pieces in
 * row-major order, square (row, column) at index (row - 1) * 8 + (column - 1).
 */
module Boards {
  import opened Wrappers
  import opened Enums
  import opened Positions
  import opened Pieces

  type Board = cells: seq<Option<Piece>> | |cells| == 64 witness seq(64, _ => None)

  /** Row-major index of a square. */
  function Index(p: Square): (i: nat)
    ensures i < 64
  {
    (p.row - 1) * 8 + (p.column - 1)
  }

  /** The square at a row-major index; the inverse of Index. */
  function SquareAt(i: nat): (p: Square)
    requires i < 64
    ensures Index(p) == i
  {
    Position(i / 8 + 1, i % 8 + 1)
  }

  lemma IndexRoundTrip(p: Square)
    ensures SquareAt(Index(p)) == p
  {
    DivModEight(p.row - 1, p.column - 1);
  }

  /** Dividing q * 8 + r by 8 gives back q and r. */
  lemma DivModEight(q: int, r: int)
    requires 0 <= q < 8 && 0 <= r < 8
    ensures (q * 8 + r) / 8 == q && (q * 8 + r) % 8 == r
  {
  }

  /** GetPieceAt: the occupant, or nothing for a position off the board. */
  function GetPieceAt(b: Board, p: Position): (r: Option<Piece>)
    ensures !IsValidPosition(p) ==> r.None?
  {
    if p.row < 1 || p.row > 8 || p.column < 1 || p.column > 8 then None
    else b[Index(p)]
  }

  /** PlacePieceAt: overwrites one square; `None` clears it. */
  function PlacePieceAt(b: Board, piece: Option<Piece>, p: Square): (r: Board)
    ensures GetPieceAt(r, p) == piece
    ensures forall q: Position :: q != p ==> GetPieceAt(r, q) == GetPieceAt(b, q)
  {
    var r := b[Index(p) := piece];
    assert forall q: Position | IsValidPosition(q) && q != p :: Index(q) != Index(p);
    r
  }

  /** Writing back what a square held leaves the board as it was. */
  lemma PlaceSameIsIdentity(b: Board, p: Square)
    ensures PlacePieceAt(b, GetPieceAt(b, p), p) == b
  {
  }

  /** A later write to the same square hides an earlier one. */
  lemma PlaceOverwrites(b: Board, x: Option<Piece>, y: Option<Piece>, p: Square)
    ensures PlacePieceAt(PlacePieceAt(b, x, p), y, p) == PlacePieceAt(b, y, p)
  {
  }

  /** The two boards hold the same occupant on every square outside `changed`. */
  ghost predicate AgreeOutside(a: Board, b: Board, changed: set<Position>)
  {
    forall q: Position :: q !in changed ==> GetPieceAt(a, q) == GetPieceAt(b, q)
  }

  /**
   * The revert step of every simulation: if `c` differs from `b` only on squares p and q,
   * writing b's occupants back on p and then on q gives `b` again. When p and q coincide the
   * first write does not matter, since the second overwrites it.
   */
  lemma RestoreTwo(b: Board, c: Board, p: Square, x: Option<Piece>, q: Square)
    requires AgreeOutside(c, b, {p, q})
    requires p != q ==> x == GetPieceAt(b, p)
    ensures PlacePieceAt(PlacePieceAt(c, x, p), GetPieceAt(b, q), q) == b
  {
    BoardExtensionality(PlacePieceAt(PlacePieceAt(c, x, p), GetPieceAt(b, q), q), b);
  }

  /** The same for three squares, all written back with b's occupants. */
  lemma RestoreThree(b: Board, c: Board, p: Square, q: Square, r: Square)
    requires AgreeOutside(c, b, {p, q, r})
    ensures PlacePieceAt(PlacePieceAt(PlacePieceAt(c, GetPieceAt(b, p), p), GetPieceAt(b, q), q), GetPieceAt(b, r), r) == b
  {
    BoardExtensionality(PlacePieceAt(PlacePieceAt(PlacePieceAt(c, GetPieceAt(b, p), p), GetPieceAt(b, q), q), GetPieceAt(b, r), r), b);
  }

  /** Two boards agreeing on every square are the same board. */
  lemma BoardExtensionality(a: Board, b: Board)
    requires forall p: Square :: GetPieceAt(a, p) == GetPieceAt(b, p)
    ensures a == b
  {
    forall i | 0 <= i < 64 ensures a[i] == b[i] {
      assert GetPieceAt(a, SquareAt(i)) == GetPieceAt(b, SquareAt(i));
    }
  }

  /** The back-rank order R N B Q K B N R, by column. */
  function BackRankKind(column: int): PieceKind
    requires 1 <= column <= 8
  {
    if column == 1 || column == 8 then Rook
    else if column == 2 || column == 7 then Knight
    else if column == 3 || column == 6 then Bishop
    else if column == 4 then Queen
    else King
  }

  /** What InitializeBoard puts on a square. */
  function InitialOccupant(p: Square): Option<Piece>
  {
    if p.row == 2 then Some(NewPiece(White, Pawn))
    else if p.row == 7 then Some(NewPiece(Black, Pawn))
    else if p.row == 1 then Some(NewPiece(White, BackRankKind(p.column)))
    else if p.row == 8 then Some(NewPiece(Black, BackRankKind(p.column)))
    else None
  }

  /** InitializeBoard: the standard starting position. */
  function InitializeBoard(): Board
  {
    seq(64, i requires 0 <= i < 64 => InitialOccupant(SquareAt(i)))
  }

  /** Reading any square of the starting position gives its initial occupant. */
  lemma InitialBoardContents(p: Square)
    ensures GetPieceAt(InitializeBoard(), p) == InitialOccupant(p)
  {
    IndexRoundTrip(p);
  }

  /** The home rank of a colour's pieces. */
  function HomeRow(c: Color): int
  {
    if c == White then 1 else 8
  }

  /** In the starting position each colour has exactly one king, on column 5 of its home rank. */
  lemma InitialKings(c: Color, p: Square)
    ensures GetPieceAt(InitializeBoard(), p) == Some(NewPiece(c, King)) <==> p == Position(HomeRow(c), 5)
  {
    InitialBoardContents(p);
    InitialOccupantKing(c, p);
  }

  lemma InitialOccupantKing(c: Color, p: Square)
    ensures InitialOccupant(p) == Some(NewPiece(c, King)) <==> p == Position(HomeRow(c), 5)
  {
  }

  /** The starting position is symmetric: mirroring the rank swaps the colour and keeps the kind. */
  lemma InitialMirror(p: Square)
    ensures var m: Square := Position(9 - p.row, p.column);
            match GetPieceAt(InitializeBoard(), p)
            case None => GetPieceAt(InitializeBoard(), m).None?
            case Some(x) => GetPieceAt(InitializeBoard(), m) == Some(Piece(Opponent(x.color), x.kind, false))
  {
    InitialBoardContents(p);
    InitialBoardContents(Position(9 - p.row, p.column));
  }

  /** Rows 3 to 6 start empty and every starting piece is unmoved. */
  lemma InitialRowsAndFlags(p: Square)
    ensures 3 <= p.row <= 6 <==> GetPieceAt(InitializeBoard(), p).None?
    ensures GetPieceAt(InitializeBoard(), p).Some? ==> !GetPieceAt(InitializeBoard(), p).value.hasMoved
  {
    InitialBoardContents(p);
  }

  /** Number of occupied cells. */
  function CountPieces(cells: seq<Option<Piece>>): nat
    decreases |cells|
  {
    if |cells| == 0 then 0
    else CountPieces(cells[..|cells| - 1]) + (if cells[|cells| - 1].Some? then 1 else 0)
  }

  lemma {:induction false} CountAppend(a: seq<Option<Piece>>, b: seq<Option<Piece>>)
    ensures CountPieces(a + b) == CountPieces(a) + CountPieces(b)
    decreases |b|
  {
    if |b| > 0 {
      CountAppend(a, b[..|b| - 1]);
      assert (a + b)[..|a + b| - 1] == a + b[..|b| - 1];
    } else {
      assert a + b == a;
    }
  }

  lemma {:induction false} CountAllOccupied(s: seq<Option<Piece>>)
    requires forall i | 0 <= i < |s| :: s[i].Some?
    ensures CountPieces(s) == |s|
    decreases |s|
  {
    if |s| > 0 {
      CountAllOccupied(s[..|s| - 1]);
    }
  }

  lemma {:induction false} CountAllEmpty(s: seq<Option<Piece>>)
    requires forall i | 0 <= i < |s| :: s[i].None?
    ensures CountPieces(s) == 0
    decreases |s|
  {
    if |s| > 0 {
      CountAllEmpty(s[..|s| - 1]);
    }
  }

  /** The first two rows and the last two rows of the starting board are occupied, the rest empty. */
  lemma InitialOccupancy()
    ensures forall i | 0 <= i < 64 :: InitializeBoard()[i].Some? <==> (i < 16 || 48 <= i)
  {
    var b := InitializeBoard();
    forall i | 0 <= i < 64 ensures (b[i].Some? <==> i < 16 || 48 <= i) {
      assert b[i] == InitialOccupant(SquareAt(i));
    }
  }

  /** The starting position holds 32 pieces: rows 1, 2, 7 and 8 full, rows 3 to 6 empty. */
  lemma InitialPieceCount()
    ensures CountPieces(InitializeBoard()) == 32
  {
    InitialOccupancy();
    CountOuterRows(InitializeBoard());
  }

  /** A board whose first 16 and last 16 squares are exactly the occupied ones holds 32 pieces. */
  lemma CountOuterRows(b: seq<Option<Piece>>)
    requires |b| == 64
    requires forall i | 0 <= i < 64 :: b[i].Some? <==> (i < 16 || 48 <= i)
    ensures CountPieces(b) == 32
  {
    var low, middle, high := b[..16], b[16..48], b[48..];
    assert forall k | 0 <= k < |low| :: low[k] == b[k];
    assert forall k | 0 <= k < |middle| :: middle[k] == b[16 + k];
    assert forall k | 0 <= k < |high| :: high[k] == b[48 + k];
    assert b == low + middle + high;
    CountAppend(low, middle);
    CountAppend(low + middle, high);
    CountAllOccupied(low);
    CountAllEmpty(middle);
    CountAllOccupied(high);
  }
}

=== FILE: check_validator.dfy ===
/**
 * The king's movement (ChessApp.Core/Pieces/King.cs), the dispatch of Piece.IsValidMove over
 * the six kinds, and the check scanner (ChessApp.Core/Game/CheckValidator.cs).
 *
 * In the source these are mutually recursive: King.IsValidMove -> IsCastlingMove ->
 * IsKingInCheck -> an enemy piece's IsValidMove -> King.IsValidMove again. The recursion always
 * stops at once, because a check scan asks whether a piece may move onto the square of a king,
 * and a two-column king move onto an occupied non-rook square fails the rook and empty-path
 * conditions before castling scans anything. The model therefore lets the check scan use
 * AttackMove, which is Piece.IsValidMove with castling left out, and KingInCheckIff proves that
 * this is the same scan as the source's, which uses the full IsValidMove.
 */
module CheckValidator {
  import opened Wrappers
  import opened Enums
  import opened Positions
  import opened Pieces
  import opened Boards
  import opened PieceRules

  /** The first branch of King.IsValidMove: one square in any direction onto an empty or enemy square. */
  predicate KingStep(b: Board, king: Piece, from: Square, to: Square)
  {
    Abs(to.row - from.row) <= 1 && Abs(to.column - from.column) <= 1 && DestinationOpen(b, king, to)
  }

  /** Piece.IsValidMove without the castling branch of the king: what a check scan evaluates. */
  predicate AttackMove(b: Board, piece: Piece, from: Square, to: Square)
  {
    match piece.kind
    case Pawn => PawnMove(b, piece, from, to)
    case Rook => RookMove(b, piece, from, to)
    case Knight => KnightMove(b, piece, from, to)
    case Bishop => BishopMove(b, piece, from, to)
    case Queen => QueenMove(b, piece, from, to)
    case King => KingStep(b, piece, from, to)
  }

  predicate IsKingOf(cell: Option<Piece>, color: Color)
  {
    cell.Some? && cell.value.kind == King && cell.value.color == color
  }

  /** The scan of FindKingPosition from index k on, in row-major order. */
  function FindKingFrom(b: Board, color: Color, k: nat): (r: Option<Square>)
    requires k <= 64
    ensures r.Some? ==> k <= Index(r.value) && IsKingOf(b[Index(r.value)], color)
                        && forall i | k <= i < Index(r.value) :: !IsKingOf(b[i], color)
    ensures r.None? ==> forall i | k <= i < 64 :: !IsKingOf(b[i], color)
    decreases 64 - k
  {
    if k == 64 then None
    else if IsKingOf(b[k], color) then Some(SquareAt(k))
    else FindKingFrom(b, color, k + 1)
  }

  /** FindKingPosition: the first king of the colour in row-major order (row 1 first, then by column). */
  function FindKingPosition(b: Board, color: Color): (r: Option<Square>)
    ensures r.Some? ==> IsKingOf(GetPieceAt(b, r.value), color)
    ensures r.Some? ==> forall p: Square :: Index(p) < Index(r.value) ==> !IsKingOf(GetPieceAt(b, p), color)
    ensures r.None? <==> forall p: Square :: !IsKingOf(GetPieceAt(b, p), color)
  {
    var r := FindKingFrom(b, color, 0);
    FindKingFromSquares(b, color);
    r
  }

  /** FindKingFrom's index-level contract restated square by square. */
  lemma FindKingFromSquares(b: Board, color: Color)
    ensures var r := FindKingFrom(b, color, 0);
            && (r.Some? ==> IsKingOf(GetPieceAt(b, r.value), color))
            && (r.Some? ==> forall p: Square :: Index(p) < Index(r.value) ==> !IsKingOf(GetPieceAt(b, p), color))
            && (r.None? <==> forall p: Square :: !IsKingOf(GetPieceAt(b, p), color))
  {
    var r := FindKingFrom(b, color, 0);
    if r.Some? {
      var k := r.value;
      assert GetPieceAt(b, k) == b[Index(k)];
      forall p: Square | Index(p) < Index(k) ensures !IsKingOf(GetPieceAt(b, p), color) {
        assert GetPieceAt(b, p) == b[Index(p)];
      }
    } else {
      forall p: Square ensures !IsKingOf(GetPieceAt(b, p), color) {
        assert GetPieceAt(b, p) == b[Index(p)];
      }
    }
  }

  /** The piece on cell i has colour `attacker` and attacks `target`. */
  predicate AttacksFrom(b: Board, i: nat, target: Square, attacker: Color)
    requires i < 64
  {
    b[i].Some? && b[i].value.color == attacker && AttackMove(b, b[i].value, SquareAt(i), target)
  }

  /** CheckValidator.IsKingInCheck: no king means no check; otherwise some enemy piece may move onto the king. */
  predicate IsKingInCheck(b: Board, kingColor: Color)
  {
    match FindKingPosition(b, kingColor)
    case None => false
    case Some(kingPosition) =>
      var enemyColor := Opponent(kingColor);
      exists i | 0 <= i < 64 :: AttacksFrom(b, i, kingPosition, enemyColor)
  }

  /**
   * King.WouldBeInCheckAfterMove: put the king on `to`, clear `from`, scan for check, then put
   * the king back on `from` and the old occupant back on `to`. Returns the scan's answer and
   * the board after the revert, which is the board it was given.
   */
  function WouldBeInCheckAfterMove(b: Board, king: Piece, from: Square, to: Square): (r: (bool, Board))
    ensures r.0 == IsKingInCheck(PlacePieceAt(PlacePieceAt(b, Some(king), to), None, from), king.color)
    ensures GetPieceAt(b, from) == Some(king) ==> r.1 == b
  {
    var originalPiece := GetPieceAt(b, to);
    var simulated := PlacePieceAt(PlacePieceAt(b, Some(king), to), None, from);
    var inCheck := IsKingInCheck(simulated, king.color);
    var reverted := PlacePieceAt(PlacePieceAt(simulated, Some(king), from), originalPiece, to);
    if GetPieceAt(b, from) == Some(king) then
      RestoreTwo(b, simulated, from, Some(king), to);
      (inCheck, reverted)
    else
      (inCheck, reverted)
  }

  /** The columns the castling king stands on, from its own column to its destination inclusive. */
  predicate CastlingPassColumn(from: Square, to: Square, col: int)
  {
    (from.column <= col <= to.column) || (to.column <= col <= from.column)
  }

  /** No column the castling king stands on, from `from` to `to` inclusive, would leave it in check. */
  predicate CastlingPassSafe(b: Board, king: Piece, from: Square, to: Square)
  {
    forall col | 1 <= col <= 8 && CastlingPassColumn(from, to, col) ::
      !WouldBeInCheckAfterMove(b, king, from, Position(from.row, col)).0
  }

  /**
   * King.IsCastlingMove: the rook and empty-path conditions, then the king not in check now,
   * then the king not attacked on any column it stands on from `from` to `to`.
   */
  predicate IsCastlingMove(b: Board, king: Piece, from: Square, to: Square)
    requires from.row == to.row && Abs(to.column - from.column) == 2
  {
    && CastlingRookReady(b, king, from, to)
    && CastlingPathEmpty(b, from, to)
    && !IsKingInCheck(b, king.color)
    && CastlingPassSafe(b, king, from, to)
  }

  /** King.IsValidMove: one step onto an empty or enemy square, or an unmoved king's two-column move that castles. */
  predicate KingMove(b: Board, king: Piece, from: Square, to: Square)
  {
    var rowDiff := Abs(to.row - from.row);
    var colDiff := Abs(to.column - from.column);
    if rowDiff <= 1 && colDiff <= 1 then DestinationOpen(b, king, to)
    else if rowDiff == 0 && colDiff == 2 && !king.hasMoved then IsCastlingMove(b, king, from, to)
    else false
  }

  /** Piece.IsValidMove, dispatched on the kind of the moving piece. */
  predicate IsValidMove(b: Board, piece: Piece, from: Square, to: Square)
  {
    match piece.kind
    case Pawn => PawnMove(b, piece, from, to)
    case Rook => RookMove(b, piece, from, to)
    case Knight => KnightMove(b, piece, from, to)
    case Bishop => BishopMove(b, piece, from, to)
    case Queen => QueenMove(b, piece, from, to)
    case King => KingMove(b, piece, from, to)
  }

  // ---------------------------------------------------------------- the check scan is the source's

  /** Every attack is a valid move; the only valid moves that are not attacks are castlings. */
  lemma AttackMoveIsValidMove(b: Board, piece: Piece, from: Square, to: Square)
    ensures AttackMove(b, piece, from, to) ==> IsValidMove(b, piece, from, to)
    ensures IsValidMove(b, piece, from, to) && !AttackMove(b, piece, from, to) ==>
              && piece.kind == King && !piece.hasMoved
              && from.row == to.row && Abs(to.column - from.column) == 2
              && IsCastlingMove(b, piece, from, to)
  {
  }

  /** Onto an occupied square that holds no rook, the full move test and the attack test agree. */
  lemma AttackMoveAgrees(b: Board, piece: Piece, from: Square, to: Square)
    requires GetPieceAt(b, to).Some? && GetPieceAt(b, to).value.kind != Rook
    ensures IsValidMove(b, piece, from, to) == AttackMove(b, piece, from, to)
  {
    if piece.kind == King && from.row == to.row && Abs(to.column - from.column) == 2 {
      CastlingBlockedByOccupiedTarget(b, piece, from, to);
    }
  }

  /** The piece on cell i has colour `attacker` and Piece.IsValidMove lets it move onto `target`. */
  predicate MayMoveOnto(b: Board, i: nat, target: Square, attacker: Color)
    requires i < 64
  {
    b[i].Some? && b[i].value.color == attacker && IsValidMove(b, b[i].value, SquareAt(i), target)
  }

  /**
   * IsKingInCheck is CheckValidator.IsKingInCheck: with the full Piece.IsValidMove of every
   * enemy piece, castling included, the scan gives the same answer.
   */
  lemma KingInCheckIff(b: Board, color: Color)
    ensures IsKingInCheck(b, color) <==>
              && FindKingPosition(b, color).Some?
              && exists i | 0 <= i < 64 :: MayMoveOnto(b, i, FindKingPosition(b, color).value, Opponent(color))
  {
    match FindKingPosition(b, color)
    case None =>
    case Some(k) =>
      forall i | 0 <= i < 64
        ensures MayMoveOnto(b, i, k, Opponent(color)) == AttacksFrom(b, i, k, Opponent(color))
      {
        if b[i].Some? {
          AttackMoveAgrees(b, b[i].value, SquareAt(i), k);
        }
      }
  }

  // ---------------------------------------------------------------- king facts

  /** The three shapes of a king move. */
  lemma KingMoveCases(b: Board, king: Piece, from: Square, to: Square)
    ensures Abs(to.row - from.row) <= 1 && Abs(to.column - from.column) <= 1 ==>
              (KingMove(b, king, from, to) <==> DestinationOpen(b, king, to))
    ensures from.row == to.row && Abs(to.column - from.column) == 2 ==>
              (KingMove(b, king, from, to) <==>
                 && !king.hasMoved
                 && CastlingRookReady(b, king, from, to)
                 && CastlingPathEmpty(b, from, to)
                 && !IsKingInCheck(b, king.color)
                 && forall col | 1 <= col <= 8 && CastlingPassColumn(from, to, col) ::
                      !WouldBeInCheckAfterMove(b, king, from, Position(from.row, col)).0)
    ensures (!(Abs(to.row - from.row) <= 1 && Abs(to.column - from.column) <= 1)
             && !(from.row == to.row && Abs(to.column - from.column) == 2)) ==> !KingMove(b, king, from, to)
  {
  }

  /**
   * The pass of the castling test at the king's own column simulates moving the king onto its
   * own square and then clears that square; with no other king of that colour on the board the
   * scan finds no king, so this pass never reports check.
   */
  lemma OwnColumnPassNeverChecks(b: Board, king: Piece, from: Square)
    requires king.kind == King
    requires forall p: Square :: p != from ==> !IsKingOf(GetPieceAt(b, p), king.color)
    ensures !WouldBeInCheckAfterMove(b, king, from, from).0
  {
    var simulated := PlacePieceAt(PlacePieceAt(b, Some(king), from), None, from);
    assert forall p: Square :: !IsKingOf(GetPieceAt(simulated, p), king.color);
  }

  // ---------------------------------------------------------------- checkmate

  /** CheckValidator.SimulateMove: moves whatever is on `from` to `to` and returns what `to` held. */
  function SimulateMove(b: Board, from: Square, to: Square): (r: (Board, Option<Piece>))
    ensures r.1 == GetPieceAt(b, to)
    ensures from != to ==> GetPieceAt(r.0, to) == GetPieceAt(b, from) && GetPieceAt(r.0, from).None?
    ensures AgreeOutside(r.0, b, {from, to})
  {
    var movingPiece := GetPieceAt(b, from);
    var capturedPiece := GetPieceAt(b, to);
    (PlacePieceAt(PlacePieceAt(b, movingPiece, to), None, from), capturedPiece)
  }

  /** CheckValidator.RevertMove: moves what is on `to` back to `from` and restores the captured piece. */
  function RevertMove(b: Board, from: Square, to: Square, capturedPiece: Option<Piece>): Board
  {
    var movingPiece := GetPieceAt(b, to);
    PlacePieceAt(PlacePieceAt(b, movingPiece, from), capturedPiece, to)
  }

  /** Reverting a simulated move gives back exactly the board it started from. */
  lemma RevertUndoesSimulate(b: Board, from: Square, to: Square)
    ensures var (simulated, captured) := SimulateMove(b, from, to);
            RevertMove(simulated, from, to, captured) == b
  {
    var (simulated, captured) := SimulateMove(b, from, to);
    RestoreTwo(b, simulated, from, GetPieceAt(simulated, to), to);
  }

  /** A friendly move from cell i to cell j that is pseudo-legal and leaves the king unattacked. */
  predicate IsEscape(b: Board, color: Color, i: nat, j: nat)
    requires i < 64 && j < 64
  {
    && b[i].Some? && b[i].value.color == color
    && IsValidMove(b, b[i].value, SquareAt(i), SquareAt(j))
    && !IsKingInCheck(SimulateMove(b, SquareAt(i), SquareAt(j)).0, color)
  }

  /** Checkmate: the king is in check and no pseudo-legal move of its side removes the check. */
  predicate IsCheckmate(b: Board, color: Color)
  {
    IsKingInCheck(b, color) && !exists i | 0 <= i < 64 :: HasEscapeFrom(b, color, i)
  }

  /** Some move of the piece on square `i` is an escape. */
  predicate HasEscapeFrom(b: Board, color: Color, i: nat)
    requires i < 64
  {
    exists j | 0 <= j < 64 :: IsEscape(b, color, i, j)
  }

  /** `f` holds for every number below `n`, accumulated one number at a time. */
  predicate AllBelow(f: nat -> bool, n: nat)
  {
    n == 0 || (AllBelow(f, n - 1) && f(n - 1))
  }

  lemma {:induction false} AllBelowIff(f: nat -> bool, n: nat)
    ensures AllBelow(f, n) <==> forall k | 0 <= k < n :: f(k)
  {
    if n > 0 {
      AllBelowIff(f, n - 1);
    }
  }

  /**
   * CheckValidator.IsCheckmate as the source runs it: squares in row-major order, each candidate
   * simulated, scanned and reverted on the one board, stopping at the first escape. It returns
   * the board as the revert left it, which is the board it was given.
   */
  method CheckmateScan(b: Board, color: Color) returns (mate: bool, board: Board)
    ensures board == b
    ensures mate == IsCheckmate(b, color)
  {
    board := b;
    if !IsKingInCheck(board, color) {
      return false, board;
    }
    var i := 0;
    while i < 64
      invariant 0 <= i <= 64
      invariant board == b
      invariant NoEscapeBelow(b, color, i)
    {
      var escape;
      escape, board := EscapeScan(board, color, i);
      if escape {
        return false, board;
      }
      i := i + 1;
    }
    NoEscapeBelowAll(b, color, 64);
    return true, board;
  }

  /** No square below `n` holds a piece with an escape, accumulated square by square. */
  predicate NoEscapeBelow(b: Board, color: Color, n: nat)
    requires n <= 64
  {
    n == 0 || (NoEscapeBelow(b, color, n - 1) && !HasEscapeFrom(b, color, n - 1))
  }

  /** The accumulated form is the generic accumulation of "no escape from this square". */
  lemma {:induction false} NoEscapeBelowAccumulates(b: Board, color: Color, n: nat)
    requires n <= 64
    ensures NoEscapeBelow(b, color, n) == AllBelow((k: nat) => k < 64 && !HasEscapeFrom(b, color, k), n)
  {
    if n > 0 {
      NoEscapeBelowAccumulates(b, color, n - 1);
    }
  }

  /** The accumulated form says the same as the quantified one. */
  lemma NoEscapeBelowAll(b: Board, color: Color, n: nat)
    requires n <= 64
    ensures NoEscapeBelow(b, color, n) <==> forall i | 0 <= i < n :: !HasEscapeFrom(b, color, i)
  {
    var f := (k: nat) => k < 64 && !HasEscapeFrom(b, color, k);
    NoEscapeBelowAccumulates(b, color, n);
    AllBelowIff(f, n);
  }

  /**
   * The body of the outer loops of CheckValidator.IsCheckmate for square `i`: nothing to try
   * unless a piece of `color` stands there; then every destination in row-major order, each
   * valid move simulated, scanned and reverted, stopping at the first that leaves the king safe.
   */
  method EscapeScan(b: Board, color: Color, i: nat) returns (escape: bool, board: Board)
    requires i < 64
    ensures board == b
    ensures escape == HasEscapeFrom(b, color, i)
  {
    board := b;
    var from := SquareAt(i);
    var piece := GetPieceAt(board, from);
    if piece.None? || piece.value.color != color {
      return false, board;
    }
    var j := 0;
    while j < 64
      invariant 0 <= j <= 64
      invariant board == b
      invariant forall j' | 0 <= j' < j :: !IsEscape(b, color, i, j')
    {
      var to := SquareAt(j);
      if IsValidMove(board, piece.value, from, to) {
        var (simulated, capturedPiece) := SimulateMove(board, from, to);
        var stillInCheck := IsKingInCheck(simulated, color);
        RevertUndoesSimulate(board, from, to);
        board := RevertMove(simulated, from, to, capturedPiece);
        if !stillInCheck {
          assert IsEscape(b, color, i, j);
          return true, board;
        }
      }
      j := j + 1;
    }
    return false, board;
  }
}

=== FILE: chess_game.dfy ===
/**
 * The game state and its turn protocol (ChessApp.Core/Game/ChessGame.cs): the ordered checks of
 * AttemptMove, the self-check simulation, the commit of a move with castling, promotion and
 * the en-passant bookkeeping, the status update, the numbered move list and the result token.
 *
 * The game is a value; every operation that changes it returns the new game.
 */
module ChessGame {
  import opened Wrappers
  import opened Enums
  import opened Positions
  import opened Pieces
  import opened Boards
  import opened PieceRules
  import opened CheckValidator
  import opened Moves
  import opened Text

  datatype Game = Game(
    board: Board,
    currentPlayer: Color,
    status: GameStatus,
    history: seq<Move>,
    whitePlayer: string,
    blackPlayer: string,
    lastPawnDoubleMove: Option<Square>)

  const DefaultWhitePlayer: string := "Blancas"
  const DefaultBlackPlayer: string := "Negras"

  /** The ChessGame constructor: the starting layout, White to move, nothing played yet. */
  function NewGame(whitePlayer: string, blackPlayer: string): (g: Game)
    ensures g.board == InitializeBoard() && g.currentPlayer == White && g.status == InProgress
    ensures g.history == [] && g.lastPawnDoubleMove.None?
    ensures g.whitePlayer == whitePlayer && g.blackPlayer == blackPlayer
  {
    Game(InitializeBoard(), White, InProgress, [], whitePlayer, blackPlayer, None)
  }

  /** ResetGame: a fresh game that keeps the two player names. */
  function ResetGame(g: Game): (r: Game)
    ensures r == NewGame(g.whitePlayer, g.blackPlayer)
  {
    g.(board := InitializeBoard(), currentPlayer := White, status := InProgress, history := [],
       lastPawnDoubleMove := None)
  }

  /**
   * GetPgnResult. The source maps WhiteCheckMate, the status in which White is mated, to "1-0",
   * a White win; that mapping is kept as written.
   */
  function GetPgnResult(s: GameStatus): (token: string)
  {
    match s
    case WhiteCheckMate => "1-0"
    case BlackCheckMate => "0-1"
    case Stalmate => "1/2-1/2"
    case Draw => "1/2-1/2"
    case _ => "*"
  }

  /** The token is "*" exactly while the game is still active, and a decided result otherwise. */
  lemma PgnResultMarksFinishedGames(s: GameStatus)
    ensures GetPgnResult(s) == "*" <==> IsActive(s)
    ensures GetPgnResult(s) in {"1-0", "0-1", "1/2-1/2", "*"}
    ensures GetPgnResult(s) == "1/2-1/2" <==> s == Stalmate || s == Draw
    ensures GetPgnResult(s) == "1-0" <==> s == WhiteCheckMate
    ensures GetPgnResult(s) == "0-1" <==> s == BlackCheckMate
  {
  }

  // ---------------------------------------------------------------- promotion

  /** IsValidPromotionPiece: a pawn may become a queen, rook, bishop or knight. */
  predicate IsValidPromotionPiece(kind: PieceKind)
  {
    kind == Queen || kind == Rook || kind == Bishop || kind == Knight
  }

  /** CreatePromotedPiece: a fresh piece of the chosen kind, or a queen for any other kind. */
  function CreatePromotedPiece(kind: PieceKind, color: Color): (p: Piece)
    ensures p.color == color && !p.hasMoved
    ensures IsValidPromotionPiece(p.kind)
    ensures IsValidPromotionPiece(kind) ==> p.kind == kind
  {
    match kind
    case Queen => NewPiece(color, Queen)
    case Rook => NewPiece(color, Rook)
    case Bishop => NewPiece(color, Bishop)
    case Knight => NewPiece(color, Knight)
    case _ => NewPiece(color, Queen)
  }

  /** GetValidPromotionOptions: the four kinds a pawn may become, queen first. */
  function GetValidPromotionOptions(): (options: seq<PieceKind>)
    ensures |options| == 4 && options[0] == Queen
    ensures forall k: PieceKind :: k in options <==> IsValidPromotionPiece(k)
  {
    [Queen, Rook, Bishop, Knight]
  }

  /** Every offered option is created as itself, never replaced by the queen fallback. */
  lemma OfferedOptionsAreHonoured(color: Color)
    ensures forall i | 0 <= i < |GetValidPromotionOptions()| ::
              CreatePromotedPiece(GetValidPromotionOptions()[i], color).kind == GetValidPromotionOptions()[i]
  {
  }

  /**
   * ExecutePromotion: replace the pawn on `position` by a fresh promoted piece of `color`. With
   * no piece there, or a piece that is not a pawn, the source reports an error on the console
   * and leaves the board alone.
   */
  function ExecutePromotion(b: Board, position: Square, kind: PieceKind, color: Color): (r: Board)
    ensures GetPieceAt(b, position).Some? && GetPieceAt(b, position).value.kind == Pawn ==>
              GetPieceAt(r, position) == Some(CreatePromotedPiece(kind, color))
    ensures !(GetPieceAt(b, position).Some? && GetPieceAt(b, position).value.kind == Pawn) ==> r == b
    ensures AgreeOutside(r, b, {position})
  {
    var currentPiece := GetPieceAt(b, position);
    if currentPiece.None? then b
    else if currentPiece.value.kind != Pawn then b
    else PlacePieceAt(b, Some(CreatePromotedPiece(kind, color)), position)
  }

  // ---------------------------------------------------------------- castling

  /** The column the castling rook lands on: the square the king passed over. */
  function RookToColumn(kingFrom: Square, kingTo: Square): int
    requires kingTo.column != kingFrom.column
  {
    if kingTo.column > kingFrom.column then kingTo.column - 1 else kingTo.column + 1
  }

  /**
   * ExecuteCastling: whatever stands on the rook's corner moves next to the king, on the square
   * the king passed over, and is marked as moved. An empty corner leaves the board alone.
   */
  function ExecuteCastling(b: Board, kingFrom: Square, kingTo: Square): (r: Board)
    requires kingTo.column != kingFrom.column
  {
    var rookFrom: Square := Position(kingFrom.row, CastlingRookColumn(kingFrom, kingTo));
    var rookTo: Square := Position(kingFrom.row, RookToColumn(kingFrom, kingTo));
    var rook := GetPieceAt(b, rookFrom);
    if rook.None? then b
    else PlacePieceAt(PlacePieceAt(b, Some(rook.value.(hasMoved := true)), rookTo), None, rookFrom)
  }

  /** Castling relocates the rook beside the king, marks it moved, and touches no other square. */
  lemma CastlingRelocatesRook(b: Board, kingFrom: Square, kingTo: Square)
    requires kingFrom.row == kingTo.row && Abs(kingTo.column - kingFrom.column) == 2
    requires GetPieceAt(b, Position(kingFrom.row, CastlingRookColumn(kingFrom, kingTo))).Some?
    ensures var rookFrom := Position(kingFrom.row, CastlingRookColumn(kingFrom, kingTo));
            var rookTo := Position(kingFrom.row, (kingFrom.column + kingTo.column) / 2);
            var rook := GetPieceAt(b, rookFrom).value;
            var r := ExecuteCastling(b, kingFrom, kingTo);
            && GetPieceAt(r, rookTo) == Some(rook.(hasMoved := true))
            && (rookFrom != rookTo ==> GetPieceAt(r, rookFrom).None?)
            && AgreeOutside(r, b, {rookFrom, rookTo})
  {
  }

  /** In the standard starting files the rook lands on f (king side) or d (queen side). */
  lemma CastlingFromHomeSquare(b: Board, kingFrom: Square, kingTo: Square)
    requires kingFrom.column == 5 && kingFrom.row == kingTo.row && Abs(kingTo.column - kingFrom.column) == 2
    ensures RookToColumn(kingFrom, kingTo) == (if kingTo.column == 7 then 6 else 4)
    ensures CastlingRookColumn(kingFrom, kingTo) == (if kingTo.column == 7 then 8 else 1)
  {
  }

  // ---------------------------------------------------------------- the en-passant square

  /**
   * UpdateLastPawnDoubleMove: remember the destination of a pawn's two-square advance, and
   * forget it after every other move. `pawn` is the mover before its flag is set.
   */
  function UpdateLastPawnDoubleMove(piece: Piece, from: Square, to: Square): (r: Option<Square>)
    ensures r.Some? <==> piece.kind == Pawn && IsDoubleMove(piece, from, to)
    ensures r.Some? ==> r.value == to
  {
    if piece.kind == Pawn then
      if IsDoubleMove(piece, from, to) then Some(to) else None
    else None
  }

  /** SetLastPawnDoubleMoveForTesting: overwrite the remembered square and nothing else. */
  function SetLastPawnDoubleMoveForTesting(g: Game, position: Square): (r: Game)
    ensures r.lastPawnDoubleMove == Some(position)
    ensures r.board == g.board && r.currentPlayer == g.currentPlayer && r.status == g.status
    ensures r.history == g.history && r.whitePlayer == g.whitePlayer && r.blackPlayer == g.blackPlayer
  {
    g.(lastPawnDoubleMove := Some(position))
  }

  // ---------------------------------------------------------------- status

  /**
   * UpdateGameStatus: checkmate of White, then of Black, then check of White, then of Black,
   * else in progress. Stalmate and Draw are never produced.
   */
  function UpdateGameStatus(b: Board): (s: GameStatus)
    ensures s != Stalmate && s != Draw
  {
    if IsCheckmate(b, White) then WhiteCheckMate
    else if IsCheckmate(b, Black) then BlackCheckMate
    else if IsKingInCheck(b, White) then WhiteCheck
    else if IsKingInCheck(b, Black) then BlackCheck
    else InProgress
  }

  /** What each status says about the board, and that a mate of White outranks everything else. */
  lemma StatusMeaning(b: Board)
    ensures UpdateGameStatus(b) == WhiteCheckMate <==> IsCheckmate(b, White)
    ensures UpdateGameStatus(b) == BlackCheckMate <==> IsCheckmate(b, Black) && !IsCheckmate(b, White)
    ensures UpdateGameStatus(b) == WhiteCheck <==>
              IsKingInCheck(b, White) && !IsCheckmate(b, White) && !IsCheckmate(b, Black)
    ensures UpdateGameStatus(b) == BlackCheck <==>
              IsKingInCheck(b, Black) && !IsKingInCheck(b, White) && !IsCheckmate(b, Black)
    ensures UpdateGameStatus(b) == InProgress <==> !IsKingInCheck(b, White) && !IsKingInCheck(b, Black)
    ensures IsActive(UpdateGameStatus(b)) <==> !IsCheckmate(b, White) && !IsCheckmate(b, Black)
  {
  }

  /** The result token names the mated side as the winner: White mated gives "1-0". */
  lemma MatedSideReportedAsWinner(b: Board)
    requires IsCheckmate(b, White)
    ensures GetPgnResult(UpdateGameStatus(b)) == "1-0"
  {
  }

  // ---------------------------------------------------------------- the self-check guard

  /**
   * IsMoveSafeForKing: play the move on the board (removing the passed pawn for an en-passant
   * capture, and putting the promoted piece on `to` for a promotion with a choice), scan the
   * mover's king for check, then write back the original occupants of every square it touched.
   * Returns whether the king is safe and the board after the write-back, which is the board it
   * was given. Castling is simulated as a plain king move; the rook stays where it is.
   */
  function IsMoveSafeForKing(b: Board, player: Color, from: Square, to: Square, piece: Piece,
                             isEnPassant: bool, promotion: Option<PieceKind>): (r: (bool, Board))
    ensures r.1 == b
    ensures r.0 == !IsKingInCheck(SafetyBoard(b, player, from, to, piece, isEnPassant, promotion), player)
  {
    var originalPieceAtTo := GetPieceAt(b, to);
    var originalPieceAtFrom := GetPieceAt(b, from);
    var simulated := SafetyBoard(b, player, from, to, piece, isEnPassant, promotion);
    var kingInCheck := IsKingInCheck(simulated, player);
    if isEnPassant then
      var capturedPawnPosition := EnPassantVictimSquare(from, to);
      var capturedPawn := GetPieceAt(b, capturedPawnPosition);
      var reverted := PlacePieceAt(PlacePieceAt(PlacePieceAt(simulated, originalPieceAtFrom, from), originalPieceAtTo, to),
                                   capturedPawn, capturedPawnPosition);
      RestoreThree(b, simulated, from, to, capturedPawnPosition);
      (!kingInCheck, reverted)
    else
      var reverted := PlacePieceAt(PlacePieceAt(simulated, originalPieceAtFrom, from), originalPieceAtTo, to);
      RestoreTwo(b, simulated, from, originalPieceAtFrom, to);
      (!kingInCheck, reverted)
  }

  /** The board IsMoveSafeForKing scans: the move played, and nothing else touched. */
  function SafetyBoard(b: Board, player: Color, from: Square, to: Square, piece: Piece,
                       isEnPassant: bool, promotion: Option<PieceKind>): (r: Board)
    ensures isEnPassant ==> AgreeOutside(r, b, {from, to, EnPassantVictimSquare(from, to)})
    ensures !isEnPassant ==> AgreeOutside(r, b, {from, to})
    ensures from != to ==> GetPieceAt(r, from).None?
    ensures !isEnPassant && from != to ==>
              GetPieceAt(r, to) == (if promotion.Some? && piece.kind == Pawn && IsPromotionMove(piece, to)
                                    then Some(CreatePromotedPiece(promotion.value, player)) else Some(piece))
    ensures isEnPassant && from != to && EnPassantVictimSquare(from, to) != to ==> GetPieceAt(r, to) == Some(piece)
    ensures isEnPassant ==> GetPieceAt(r, EnPassantVictimSquare(from, to)).None?
  {
    if isEnPassant then
      PlacePieceAt(PlacePieceAt(PlacePieceAt(b, Some(piece), to), None, from), None, EnPassantVictimSquare(from, to))
    else
      var moved := PlacePieceAt(PlacePieceAt(b, Some(piece), to), None, from);
      if promotion.Some? && piece.kind == Pawn && IsPromotionMove(piece, to) then
        PlacePieceAt(moved, Some(CreatePromotedPiece(promotion.value, player)), to)
      else moved
  }

  // ---------------------------------------------------------------- committing a move

  const MsgSuccess: string := "Movimiento exitoso"

  /**
   * ExecuteMove: build the move record, remove an en-passant victim, move the piece, move the
   * rook of a castling, promote, update the en-passant square, mark the mover as moved, record
   * whether the opponent is now in check, append the move, pass the turn and recompute the
   * status. The mover is the same object on the board and in the record, so both carry the
   * moved flag; a promoted pawn is replaced by a fresh piece whose flag stays false.
   */
  function ExecuteMove(g: Game, from: Square, to: Square, piece: Piece, captured: Option<Piece>,
                       promotion: Option<PieceKind>, isEnPassant: bool): (r: (MoveResult, Game))
    ensures r.0.isSuccess && r.0.message == MsgSuccess && r.0.move.Some?
    ensures r.1.history == g.history + [r.0.move.value]
    ensures r.1.currentPlayer == Opponent(g.currentPlayer)
    ensures r.1.lastPawnDoubleMove == (if piece.kind == Pawn && IsDoubleMove(piece, from, to) then Some(to) else None)
    ensures r.1.status == UpdateGameStatus(r.1.board)
    ensures r.0.move.value.isCheck == IsKingInCheck(r.1.board, r.1.currentPlayer)
    ensures r.0.move.value.isCheckmate <==> r.1.status in {WhiteCheckMate, BlackCheckMate}
    ensures r.1.whitePlayer == g.whitePlayer && r.1.blackPlayer == g.blackPlayer
    ensures r.1.board == CommitBoard(g.board, g.currentPlayer, from, to, piece, promotion, isEnPassant)
    ensures var m := r.0.move.value;
            && m.from == from && m.to == to && m.piece == piece.(hasMoved := true) && m.captured == captured
            && m.notation == ToAlgebraicNotation(piece.kind, to)
            && m.isCastling == IsCastlingShape(piece, from, to)
            && m.isPromotion == (piece.kind == Pawn && IsPromotionMove(piece, to))
            && m.promotedKind == PromotionChoice(piece, to, promotion)
            && m.isEnPassant == isEnPassant
  {
    var isCastling := IsCastlingShape(piece, from, to);
    var isPromotion := piece.kind == Pawn && IsPromotionMove(piece, to);
    var promotionPiece := PromotionChoice(piece, to, promotion);
    var board := CommitBoard(g.board, g.currentPlayer, from, to, piece, promotion, isEnPassant);
    var last := UpdateLastPawnDoubleMove(piece, from, to);
    var opponentColor := Opponent(g.currentPlayer);
    var isCheck := IsKingInCheck(board, opponentColor);
    var status := UpdateGameStatus(board);
    var move := NewMove(from, to, piece.(hasMoved := true), captured).(
      isCastling := isCastling, isPromotion := isPromotion, promotedKind := promotionPiece,
      isEnPassant := isEnPassant, isCheck := isCheck,
      isCheckmate := status == WhiteCheckMate || status == BlackCheckMate);
    (Success(MsgSuccess, move),
     g.(board := board, lastPawnDoubleMove := last, history := g.history + [move],
        currentPlayer := opponentColor, status := status))
  }

  /** ExecuteMove's test for a castling: a king moving two columns. */
  predicate IsCastlingShape(piece: Piece, from: Square, to: Square)
  {
    piece.kind == King && Abs(to.column - from.column) == 2
  }

  /** The promotion kind ExecuteMove records: the choice, or a queen for a promotion made without one. */
  function PromotionChoice(piece: Piece, to: Square, promotion: Option<PieceKind>): (r: Option<PieceKind>)
    ensures piece.kind == Pawn && IsPromotionMove(piece, to) ==> r.Some?
    ensures piece.kind == Pawn && IsPromotionMove(piece, to) && promotion.None? ==> r == Some(Queen)
    ensures promotion.Some? ==> r == promotion
  {
    if piece.kind == Pawn && IsPromotionMove(piece, to) && promotion.None? then Some(Queen) else promotion
  }

  /**
   * The board writes of ExecuteMove, in order: remove an en-passant victim, move the piece
   * (carrying its moved flag), move the castling rook, promote.
   */
  function CommitBoard(b: Board, player: Color, from: Square, to: Square, piece: Piece,
                       promotion: Option<PieceKind>, isEnPassant: bool): Board
  {
    var victim := EnPassantVictimSquare(from, to);
    var b1 := if isEnPassant && GetPieceAt(b, victim).Some? then PlacePieceAt(b, None, victim) else b;
    var b2 := PlacePieceAt(PlacePieceAt(b1, Some(piece.(hasMoved := true)), to), None, from);
    var b3 := if IsCastlingShape(piece, from, to) then ExecuteCastling(b2, from, to) else b2;
    var promotionPiece := PromotionChoice(piece, to, promotion);
    if piece.kind == Pawn && IsPromotionMove(piece, to) then ExecutePromotion(b3, to, promotionPiece.value, player)
    else b3
  }

  /**
   * What committing a move leaves on the board: an ordinary move carries the marked mover from
   * `from` to `to` and touches nothing else; a promotion leaves the unmoved promoted piece on
   * `to`; an en-passant capture also empties the passed pawn's square.
   */
  lemma CommitBoardEffects(b: Board, player: Color, from: Square, to: Square, piece: Piece,
                           promotion: Option<PieceKind>, isEnPassant: bool)
    requires from != to
    ensures var r := CommitBoard(b, player, from, to, piece, promotion, isEnPassant);
            GetPieceAt(r, from).None? || IsCastlingShape(piece, from, to)
    ensures var r := CommitBoard(b, player, from, to, piece, promotion, isEnPassant);
            !IsCastlingShape(piece, from, to) && !(piece.kind == Pawn && IsPromotionMove(piece, to)) && !isEnPassant ==>
              GetPieceAt(r, to) == Some(piece.(hasMoved := true)) && AgreeOutside(r, b, {from, to})
    ensures var r := CommitBoard(b, player, from, to, piece, promotion, isEnPassant);
            piece.kind == Pawn && IsPromotionMove(piece, to) ==>
              GetPieceAt(r, to) == Some(CreatePromotedPiece(PromotionChoice(piece, to, promotion).value, player))
    ensures var r := CommitBoard(b, player, from, to, piece, promotion, isEnPassant);
            isEnPassant && EnPassantVictimSquare(from, to) != to ==> GetPieceAt(r, EnPassantVictimSquare(from, to)).None?
    ensures var r := CommitBoard(b, player, from, to, piece, promotion, isEnPassant);
            isEnPassant && !IsCastlingShape(piece, from, to) && !(piece.kind == Pawn && IsPromotionMove(piece, to))
            && EnPassantVictimSquare(from, to) != to ==>
              GetPieceAt(r, to) == Some(piece.(hasMoved := true))
              && AgreeOutside(r, b, {from, to, EnPassantVictimSquare(from, to)})
    ensures var r := CommitBoard(b, player, from, to, piece, promotion, isEnPassant);
            piece.kind == Pawn && IsPromotionMove(piece, to) && !isEnPassant ==> AgreeOutside(r, b, {from, to})
  {
  }

  /**
   * Committing a castling king: the marked king stands on `to`, the piece from the rook's corner
   * (marked moved) stands on the square the king passed over, `from` and the corner are empty,
   * and no other square changes.
   */
  lemma CommitCastlingEffects(b: Board, player: Color, from: Square, to: Square, piece: Piece,
                              promotion: Option<PieceKind>, isEnPassant: bool)
    requires IsCastlingShape(piece, from, to) && from.row == to.row && !isEnPassant
    requires Position(from.row, CastlingRookColumn(from, to)) != to
    ensures var r := CommitBoard(b, player, from, to, piece, promotion, isEnPassant);
            var corner := Position(from.row, CastlingRookColumn(from, to));
            var passed := Position(from.row, RookToColumn(from, to));
            && GetPieceAt(r, to) == Some(piece.(hasMoved := true))
            && GetPieceAt(r, from).None?
            && GetPieceAt(r, corner).None?
            && (GetPieceAt(b, corner).Some? ==> GetPieceAt(r, passed) == Some(GetPieceAt(b, corner).value.(hasMoved := true)))
            && (GetPieceAt(b, corner).None? ==> GetPieceAt(r, passed) == GetPieceAt(b, passed))
            && AgreeOutside(r, b, {from, to, corner, passed})
  {
  }

  // ---------------------------------------------------------------- AttemptMove

  const MsgFinished: string := "El juego ha terminado"
  const MsgOffBoard: string := "Posicion fuera del tablero"
  const MsgNoPiece: string := "No hay pieza en la posicion de origen"
  const MsgNotYourTurn: string := "No es tu turno"
  const MsgPromotionRequired: string := "Debe especificar una pieza para la promoción del peón"
  const MsgBadPromotion: string := "Pieza de promoción no válida"
  const MsgInvalidMove: string := "Movimiento no valido para esta pieza"
  const MsgOwnCapture: string := "No puedes capturar tus propias piezas"
  const MsgSelfCheck: string := "No puedes dejar a tu rey en jaque"

  /**
   * AttemptMove: the checks in the source's order, each with its own message, then the move.
   * A rejected attempt returns the game unchanged.
   */
  function AttemptMove(g: Game, from: Position, to: Position, promotion: Option<PieceKind>): (r: (MoveResult, Game))
    ensures !r.0.isSuccess ==> r.1 == g && r.0.move.None?
    ensures r.0.isSuccess ==> r.0.message == MsgSuccess && r.0.move.Some?
                              && r.1.history == g.history + [r.0.move.value]
                              && r.1.currentPlayer == Opponent(g.currentPlayer)
  {
    if !IsActive(g.status) then (Failure(MsgFinished), g)
    else if !IsValidPosition(from) || !IsValidPosition(to) then (Failure(MsgOffBoard), g)
    else
      var piece := GetPieceAt(g.board, from);
      if piece.None? then (Failure(MsgNoPiece), g)
      else if piece.value.color != g.currentPlayer then (Failure(MsgNotYourTurn), g)
      else
        var isPromotion := piece.value.kind == Pawn && IsPromotionMove(piece.value, to);
        if isPromotion && promotion.None? then (Failure(MsgPromotionRequired), g)
        else if promotion.Some? && !IsValidPromotionPiece(promotion.value) then (Failure(MsgBadPromotion), g)
        else
          var isEnPassant := piece.value.kind == Pawn
                             && IsValidEnPassantCapture(g.board, piece.value, from, to, g.lastPawnDoubleMove);
          var capturedPiece := if isEnPassant then GetPieceAt(g.board, EnPassantVictimSquare(from, to))
                               else GetPieceAt(g.board, to);
          if !isEnPassant && !IsValidMove(g.board, piece.value, from, to) then (Failure(MsgInvalidMove), g)
          else if !isEnPassant && capturedPiece.Some? && capturedPiece.value.color == g.currentPlayer then
            (Failure(MsgOwnCapture), g)
          else if !IsMoveSafeForKing(g.board, g.currentPlayer, from, to, piece.value, isEnPassant, promotion).0 then
            (Failure(MsgSelfCheck), g)
          else ExecuteMove(g, from, to, piece.value, capturedPiece, promotion, isEnPassant)
  }

  /**
   * The conditions under which AttemptMove makes the move, as one conjunction: an active game,
   * two squares on the board, a piece of the side to move on `from`, a promotion choice exactly
   * when one is needed and only among queen, rook, bishop and knight, a valid move (or an
   * en-passant capture) not onto an own piece, and the mover's king safe afterwards.
   */
  predicate MoveAccepted(g: Game, from: Position, to: Position, promotion: Option<PieceKind>)
  {
    && IsActive(g.status)
    && IsValidPosition(from) && IsValidPosition(to)
    && GetPieceAt(g.board, from).Some?
    && var piece := GetPieceAt(g.board, from).value;
       var f: Square := from;
       var t: Square := to;
       var isEnPassant := piece.kind == Pawn && IsValidEnPassantCapture(g.board, piece, f, t, g.lastPawnDoubleMove);
       && piece.color == g.currentPlayer
       && (piece.kind == Pawn && IsPromotionMove(piece, t) ==> promotion.Some?)
       && (promotion.Some? ==> IsValidPromotionPiece(promotion.value))
       && (isEnPassant || (IsValidMove(g.board, piece, f, t) && !(GetPieceAt(g.board, t).Some? && GetPieceAt(g.board, t).value.color == g.currentPlayer)))
       && !IsKingInCheck(SafetyBoard(g.board, g.currentPlayer, f, t, piece, isEnPassant, promotion), g.currentPlayer)
  }

  /** AttemptMove succeeds exactly when every condition holds; otherwise it changes nothing. */
  lemma AttemptMoveSucceedsIff(g: Game, from: Position, to: Position, promotion: Option<PieceKind>)
    ensures AttemptMove(g, from, to, promotion).0.isSuccess <==> MoveAccepted(g, from, to, promotion)
    ensures !MoveAccepted(g, from, to, promotion) ==> AttemptMove(g, from, to, promotion).1 == g
  {
  }

  /** Once the game is over, every attempt is refused with the same message. */
  lemma FinishedGameRefusesEveryMove(g: Game, from: Position, to: Position, promotion: Option<PieceKind>)
    requires !IsActive(g.status)
    ensures AttemptMove(g, from, to, promotion) == (Failure(MsgFinished), g)
  {
  }

  /** Off-board squares are reported before anything on the board is looked at. */
  lemma OffBoardRefusedSecond(g: Game, from: Position, to: Position, promotion: Option<PieceKind>)
    requires IsActive(g.status) && !(IsValidPosition(from) && IsValidPosition(to))
    ensures AttemptMove(g, from, to, promotion) == (Failure(MsgOffBoard), g)
  {
  }

  /** An empty origin, then a piece of the wrong colour, are the next two refusals. */
  lemma OriginRefusals(g: Game, from: Square, to: Square, promotion: Option<PieceKind>)
    requires IsActive(g.status)
    ensures GetPieceAt(g.board, from).None? ==> AttemptMove(g, from, to, promotion) == (Failure(MsgNoPiece), g)
    ensures GetPieceAt(g.board, from).Some? && GetPieceAt(g.board, from).value.color != g.currentPlayer ==>
              AttemptMove(g, from, to, promotion) == (Failure(MsgNotYourTurn), g)
  {
  }

  /**
   * The promotion checks come before the move itself is examined: a pawn reaching the last rank
   * without a choice is refused, and a choice of king or pawn is refused on any move, even one
   * that is no promotion or that the piece could not make at all.
   */
  lemma PromotionChecksComeFirst(g: Game, from: Square, to: Square, promotion: Option<PieceKind>)
    requires IsActive(g.status)
    requires GetPieceAt(g.board, from).Some? && GetPieceAt(g.board, from).value.color == g.currentPlayer
    ensures var piece := GetPieceAt(g.board, from).value;
            piece.kind == Pawn && IsPromotionMove(piece, to) && promotion.None? ==>
              AttemptMove(g, from, to, promotion) == (Failure(MsgPromotionRequired), g)
    ensures var piece := GetPieceAt(g.board, from).value;
            !(piece.kind == Pawn && IsPromotionMove(piece, to) && promotion.None?)
            && promotion.Some? && !IsValidPromotionPiece(promotion.value) ==>
              AttemptMove(g, from, to, promotion) == (Failure(MsgBadPromotion), g)
  {
  }

  /**
   * The last three refusals, in order, once the promotion checks have passed: a move the piece
   * cannot make (unless it is an en-passant capture), then a capture of an own piece, then a
   * move that leaves the mover's king in check.
   */
  lemma LateRefusals(g: Game, from: Square, to: Square, promotion: Option<PieceKind>)
    requires IsActive(g.status)
    requires GetPieceAt(g.board, from).Some? && GetPieceAt(g.board, from).value.color == g.currentPlayer
    requires var piece := GetPieceAt(g.board, from).value;
             !(piece.kind == Pawn && IsPromotionMove(piece, to) && promotion.None?)
             && !(promotion.Some? && !IsValidPromotionPiece(promotion.value))
    ensures var piece := GetPieceAt(g.board, from).value;
            var isEnPassant := piece.kind == Pawn && IsValidEnPassantCapture(g.board, piece, from, to, g.lastPawnDoubleMove);
            !isEnPassant && !IsValidMove(g.board, piece, from, to) ==>
              AttemptMove(g, from, to, promotion) == (Failure(MsgInvalidMove), g)
    ensures var piece := GetPieceAt(g.board, from).value;
            var isEnPassant := piece.kind == Pawn && IsValidEnPassantCapture(g.board, piece, from, to, g.lastPawnDoubleMove);
            !isEnPassant && IsValidMove(g.board, piece, from, to)
            && GetPieceAt(g.board, to).Some? && GetPieceAt(g.board, to).value.color == g.currentPlayer ==>
              AttemptMove(g, from, to, promotion) == (Failure(MsgOwnCapture), g)
    ensures var piece := GetPieceAt(g.board, from).value;
            var isEnPassant := piece.kind == Pawn && IsValidEnPassantCapture(g.board, piece, from, to, g.lastPawnDoubleMove);
            (isEnPassant || (IsValidMove(g.board, piece, from, to)
                             && !(GetPieceAt(g.board, to).Some? && GetPieceAt(g.board, to).value.color == g.currentPlayer)))
            && IsKingInCheck(SafetyBoard(g.board, g.currentPlayer, from, to, piece, isEnPassant, promotion), g.currentPlayer) ==>
              AttemptMove(g, from, to, promotion) == (Failure(MsgSelfCheck), g)
  {
  }

  /** A board holding only a White pawn on e5 and a Black pawn on d5 that has just advanced two squares. */
  function EnPassantExampleBoard(): (b: Board)
    ensures forall p: Square :: p != Position(5, 5) && p != Position(5, 4) ==> GetPieceAt(b, p).None?
  {
    var empty: Board := seq(64, _ => None);
    PlacePieceAt(PlacePieceAt(empty, Some(Piece(White, Pawn, true)), Position(5, 5)),
                 Some(Piece(Black, Pawn, true)), Position(5, 4))
  }

  /**
   * The en-passant capture e5xd6 after d7-d5. With the source's reference comparison the
   * en-passant test fails and the pawn's ordinary rule refuses a diagonal onto an empty square,
   * so the source answers MsgInvalidMove; this model, which compares positions by value, makes
   * the move and removes the pawn from d5.
   */
  lemma EnPassantExample()
    ensures var b := EnPassantExampleBoard();
            var pawn := Piece(White, Pawn, true);
            var e5: Square := Position(5, 5);
            var d6: Square := Position(6, 4);
            var d5: Square := Position(5, 4);
            var g := Game(b, White, InProgress, [], DefaultWhitePlayer, DefaultBlackPlayer, Some(d5));
            && !IsValidEnPassantCaptureAsWritten(b, pawn, e5, d6, Some(d5))
            && !IsValidMove(b, pawn, e5, d6)
            && AttemptMove(g, e5, d6, None).0.isSuccess
            && GetPieceAt(AttemptMove(g, e5, d6, None).1.board, d5).None?
  {
    var b := EnPassantExampleBoard();
    var pawn := Piece(White, Pawn, true);
    var e5: Square := Position(5, 5);
    var d6: Square := Position(6, 4);
    var d5: Square := Position(5, 4);
    PieceRules.EnPassantCounterexample();
    assert GetPieceAt(b, d6).None?;
    assert GetPieceAt(b, e5) == Some(pawn);
    var safety := SafetyBoard(b, White, e5, d6, pawn, true, None);
    assert forall p: Square :: !IsKingOf(GetPieceAt(safety, p), White) by {
      forall p: Square ensures !IsKingOf(GetPieceAt(safety, p), White) {
        if p != e5 && p != d6 && p != d5 {
          assert GetPieceAt(safety, p) == GetPieceAt(b, p);
        }
      }
    }
  }

  /** What a successful attempt changes: the turn, the history, the en-passant square and the status. */
  lemma AttemptMoveEffects(g: Game, from: Position, to: Position, promotion: Option<PieceKind>)
    requires AttemptMove(g, from, to, promotion).0.isSuccess
    ensures IsValidPosition(from) && IsValidPosition(to) && GetPieceAt(g.board, from).Some?
    ensures var r := AttemptMove(g, from, to, promotion);
            var piece := GetPieceAt(g.board, from).value;
            var m := r.0.move.value;
            && piece.color == g.currentPlayer
            && r.1.currentPlayer == Opponent(g.currentPlayer)
            && r.1.history == g.history + [m]
            && m.from == from && m.to == to && m.piece == piece.(hasMoved := true)
            && m.notation == ToAlgebraicNotation(piece.kind, to)
            && r.1.lastPawnDoubleMove == (if piece.kind == Pawn && IsDoubleMove(piece, from, to) then Some(to) else None)
            && m.isCheck == IsKingInCheck(r.1.board, Opponent(g.currentPlayer))
            && r.1.status == UpdateGameStatus(r.1.board)
            && (m.isCheckmate <==> r.1.status == WhiteCheckMate || r.1.status == BlackCheckMate)
            && r.1.whitePlayer == g.whitePlayer && r.1.blackPlayer == g.blackPlayer
    ensures var r := AttemptMove(g, from, to, promotion);
            var piece := GetPieceAt(g.board, from).value;
            var isEnPassant := piece.kind == Pawn
                               && IsValidEnPassantCapture(g.board, piece, from, to, g.lastPawnDoubleMove);
            r.1.board == CommitBoard(g.board, g.currentPlayer, from, to, piece, promotion, isEnPassant)
  {
  }

  // ---------------------------------------------------------------- the numbered move list

  /** The notation GetFormattedMoveHistory prints for a move, recomputed from its piece and destination. */
  function MoveNotation(m: Move): string
  {
    ToAlgebraicNotation(m.piece.kind, m.to)
  }

  /** Entry k of the move list: "k+1. <white move>", followed by " <black move>" when Black has replied. */
  function HistoryEntry(history: seq<Move>, k: nat): string
    requires 2 * k < |history|
  {
    NatToString(k + 1) + ". " + MoveNotation(history[2 * k])
    + (if 2 * k + 1 < |history| then " " + MoveNotation(history[2 * k + 1]) else "")
  }

  /** The move list: one numbered entry per full move, the last possibly holding White's move only. */
  function FormattedMoveHistory(history: seq<Move>): (r: seq<string>)
    ensures |r| == (|history| + 1) / 2
    ensures forall k | 0 <= k < |r| :: r[k] == HistoryEntry(history, k)
  {
    seq((|history| + 1) / 2, k requires 0 <= k < (|history| + 1) / 2 => HistoryEntry(history, k))
  }

  /** Entries that a later move does not touch stay as they were. */
  lemma HistoryEntryStable(history: seq<Move>, i: nat, k: nat)
    requires i < |history| && 2 * k + 1 < i
    ensures HistoryEntry(history[..i], k) == HistoryEntry(history[..i + 1], k)
  {
    assert history[..i][2 * k] == history[..i + 1][2 * k];
    assert history[..i][2 * k + 1] == history[..i + 1][2 * k + 1];
  }

  /** A White move (even index) opens a new numbered entry. */
  lemma FormattedHistoryWhiteStep(history: seq<Move>, i: nat)
    requires i < |history| && i % 2 == 0
    ensures FormattedMoveHistory(history[..i + 1])
            == FormattedMoveHistory(history[..i]) + [NatToString(i / 2 + 1) + ". " + MoveNotation(history[i])]
  {
    var before, after := FormattedMoveHistory(history[..i]), FormattedMoveHistory(history[..i + 1]);
    var entry := NatToString(i / 2 + 1) + ". " + MoveNotation(history[i]);
    forall k | 0 <= k < |before| ensures after[k] == before[k] {
      HistoryEntryStable(history, i, k);
    }
    assert history[..i + 1][i] == history[i];
    assert after[i / 2] == entry + "";
    assert entry + "" == entry;
    AppendOne(before, after, entry);
  }

  /** A sequence one longer than `before` that agrees with it and ends in `x` is `before` + [x]. */
  lemma AppendOne<T>(before: seq<T>, after: seq<T>, x: T)
    requires |after| == |before| + 1
    requires forall j | 0 <= j < |before| :: after[j] == before[j]
    requires after[|before|] == x
    ensures after == before + [x]
  {
  }

  /** A Black move (odd index) completes the last entry. */
  lemma FormattedHistoryBlackStep(history: seq<Move>, i: nat)
    requires i < |history| && i % 2 == 1
    ensures var before := FormattedMoveHistory(history[..i]);
            |before| > 0
            && FormattedMoveHistory(history[..i + 1])
               == before[..|before| - 1] + [before[|before| - 1] + " " + MoveNotation(history[i])]
  {
    var before, after := FormattedMoveHistory(history[..i]), FormattedMoveHistory(history[..i + 1]);
    var k := |before| - 1;
    assert k == i / 2;
    forall j | 0 <= j < k ensures after[j] == before[j] {
      HistoryEntryStable(history, i, j);
    }
    LastEntryCompleted(history, i);
    ReplaceLast(before, after, before[k] + " " + MoveNotation(history[i]));
  }

  /** A sequence that agrees with `before` except for holding `x` last is `before` with its last element replaced. */
  lemma ReplaceLast<T>(before: seq<T>, after: seq<T>, x: T)
    requires |before| > 0 && |after| == |before|
    requires forall j | 0 <= j < |before| - 1 :: after[j] == before[j]
    requires after[|before| - 1] == x
    ensures after == before[..|before| - 1] + [x]
  {
  }

  /** Black's reply is appended, after a space, to the entry White's move opened. */
  lemma LastEntryCompleted(history: seq<Move>, i: nat)
    requires i < |history| && i % 2 == 1
    ensures HistoryEntry(history[..i + 1], i / 2) == HistoryEntry(history[..i], i / 2) + " " + MoveNotation(history[i])
  {
    var k := i / 2;
    var pre, post := history[..i], history[..i + 1];
    var head := NatToString(k + 1) + ". " + MoveNotation(history[2 * k]);
    var tail := " " + MoveNotation(history[i]);
    assert pre[2 * k] == history[2 * k] && post[2 * k] == history[2 * k];
    assert post[2 * k + 1] == history[i];
    assert HistoryEntry(pre, k) == head + "";
    assert HistoryEntry(post, k) == head + tail;
    ExtendedBy(HistoryEntry(pre, k), HistoryEntry(post, k), head, " ", MoveNotation(history[i]));
  }

  /** A text that is `head` plus "a then b", next to one that is `head` alone, extends it by a, then b. */
  lemma ExtendedBy(shorter: string, longer: string, head: string, a: string, b: string)
    requires shorter == head + "" && longer == head + (a + b)
    ensures longer == shorter + a + b
  {
  }

  /** The source's entry text, number then "." then " " then the move, is the number, ". " and the move. */
  lemma NumberedEntry(number: string, text: string)
    ensures number + "." + " " + text == number + ". " + text
  {
  }

  /**
   * GetFormattedMoveHistory as the source runs it: a White move opens a numbered entry, a Black
   * move is appended to the last entry.
   */
  method GetFormattedMoveHistory(history: seq<Move>) returns (formattedMoves: seq<string>)
    ensures formattedMoves == FormattedMoveHistory(history)
  {
    formattedMoves := [];
    var i := 0;
    while i < |history|
      invariant 0 <= i <= |history|
      invariant formattedMoves == FormattedMoveHistory(history[..i])
    {
      formattedMoves := RecordMove(history, i, formattedMoves);
      i := i + 1;
    }
    assert history[..i] == history;
  }

  /** One pass of the loop in GetFormattedMoveHistory: the move list after move `i` is recorded. */
  method RecordMove(history: seq<Move>, i: nat, formattedMoves: seq<string>) returns (next: seq<string>)
    requires i < |history|
    requires formattedMoves == FormattedMoveHistory(history[..i])
    ensures next == FormattedMoveHistory(history[..i + 1])
  {
    var moveNumber := NatToString(i / 2 + 1) + ".";
    var moveText := MoveNotation(history[i]);
    if i % 2 == 0 {
      FormattedHistoryWhiteStep(history, i);
      NumberedEntry(NatToString(i / 2 + 1), moveText);
      next := formattedMoves + [moveNumber + " " + moveText];
    } else {
      FormattedHistoryBlackStep(history, i);
      next := formattedMoves[..|formattedMoves| - 1] + [formattedMoves[|formattedMoves| - 1] + " " + moveText];
    }
  }

  /** The four moves of the opening 1. e4 e5 2. Nf3 Nc6. */
  function OpeningMoves(): seq<Move>
  {
    var e2: Square := Position(2, 5);
    var e4: Square := Position(4, 5);
    var e7: Square := Position(7, 5);
    var e5: Square := Position(5, 5);
    var g1: Square := Position(1, 7);
    var f3: Square := Position(3, 6);
    var b8: Square := Position(8, 2);
    var c6: Square := Position(6, 3);
    [ NewMove(e2, e4, NewPiece(White, Pawn), None),
      NewMove(e7, e5, NewPiece(Black, Pawn), None),
      NewMove(g1, f3, NewPiece(White, Knight), None),
      NewMove(b8, c6, NewPiece(Black, Knight), None) ]
  }

  lemma OpeningNotations()
    ensures MoveNotation(OpeningMoves()[0]) == "e4" && MoveNotation(OpeningMoves()[1]) == "e5"
    ensures MoveNotation(OpeningMoves()[2]) == "Nf3" && MoveNotation(OpeningMoves()[3]) == "Nc6"
  {
    var e4, e5, f3, c6 := Positions.ToString(Position(4, 5)), Positions.ToString(Position(5, 5)),
                          Positions.ToString(Position(3, 6)), Positions.ToString(Position(6, 3));
    assert e4 == [e4[0], e4[1]] == "e4";
    assert e5 == [e5[0], e5[1]] == "e5";
    assert f3 == [f3[0], f3[1]] == "f3";
    assert c6 == [c6[0], c6[1]] == "c6";
  }

  /** The text of a full move's entry: its number, ". ", White's move, " ", Black's move. */
  function EntryOf(number: nat, white: string, black: string): string
  {
    NatToString(number) + ". " + white + " " + black
  }

  /** An entry holding both moves of a full move, spelled out. */
  lemma FullEntry(history: seq<Move>, k: nat, number: nat)
    requires 2 * k + 1 < |history| && number == k + 1
    ensures HistoryEntry(history, k) == EntryOf(number, MoveNotation(history[2 * k]), MoveNotation(history[2 * k + 1]))
  {
  }

  /** Four moves make two full entries, numbered 1 and 2. */
  lemma FourMoveHistory(history: seq<Move>)
    requires |history| == 4
    ensures FormattedMoveHistory(history)
            == [ EntryOf(1, MoveNotation(history[0]), MoveNotation(history[1])),
                 EntryOf(2, MoveNotation(history[2]), MoveNotation(history[3])) ]
  {
    var r := FormattedMoveHistory(history);
    var first := EntryOf(1, MoveNotation(history[0]), MoveNotation(history[1]));
    var second := EntryOf(2, MoveNotation(history[2]), MoveNotation(history[3]));
    assert r[0] == first by {
      FullEntry(history, 0, 1);
    }
    assert r[1] == second by {
      FullEntry(history, 1, 2);
    }
    PairOf(r, first, second);
  }

  /** A two-element sequence is the display of its two elements. */
  lemma PairOf(r: seq<string>, a: string, b: string)
    requires |r| == 2 && r[0] == a && r[1] == b
    ensures r == [a, b]
  {
  }

  /** The two entries of the example, spelled out. */
  lemma OpeningEntryTexts()
    ensures EntryOf(1, "e4", "e5") == "1. e4 e5"
    ensures EntryOf(2, "Nf3", "Nc6") == "2. Nf3 Nc6"
  {
    assert NatToString(1) == "1";
    assert NatToString(2) == "2";
  }

  /** The opening 1. e4 e5 2. Nf3 Nc6 is listed as two numbered entries. */
  lemma FormattedHistoryExample()
    ensures FormattedMoveHistory(OpeningMoves()) == ["1. e4 e5", "2. Nf3 Nc6"]
  {
    OpeningNotations();
    FourMoveHistory(OpeningMoves());
    OpeningEntryTexts();
  }
}

=== FILE: chess_positions.dfy ===
/**
 * The 0-based twin of Position (ChessApp.Core/Models/ChessPosition.cs). Nothing else in the
 * engine refers to it. Unlike Position it keeps its notation text and overrides equality
 * and hashing, so it is modelled with the stored text as a field and `Equals` as a function.
 */
module ChessPositions {
  import opened Wrappers
  import opened Text

  /** Row 1..8, column 0..7 (0 is file a), and the notation text kept by the object. */
  datatype ChessPosition = ChessPosition(row: int, column: int, notation: string)

  predicate InRange(row: int, column: int)
  {
    1 <= row <= 8 && 0 <= column <= 7
  }

  datatype ChessPositionError = InvalidCoordinates | InvalidNotation | OffBoard

  /** ConvertToAlgebraic: the letter 'a' + column followed by the decimal row. */
  function ConvertToAlgebraic(row: int, column: int): (s: string)
    requires InRange(row, column)
    ensures |s| == 2 && 'a' <= s[0] <= 'h' && '1' <= s[1] <= '8'
    ensures (s[0] as int) - ('a' as int) == column && (s[1] as int) - ('0' as int) == row
  {
    [(('a' as int) + column) as char] + NatToString(row)
  }

  /** `new ChessPosition(row, column)`: rows 1..8 and columns 0..7 only. */
  function NewChessPosition(row: int, column: int): (r: Result<ChessPosition, ChessPositionError>)
    ensures r.Ok? <==> InRange(row, column)
    ensures r.Ok? ==> r.value.row == row && r.value.column == column
  {
    if row < 1 || row > 8 || column < 0 || column > 7 then Err(InvalidCoordinates)
    else Ok(ChessPosition(row, column, ConvertToAlgebraic(row, column)))
  }

  /** `new ChessPosition(string)`; `None` is a null reference. The lower-cased text is kept. */
  function Parse(notation: Option<string>): (r: Result<ChessPosition, ChessPositionError>)
    ensures r == Err(InvalidNotation) <==> notation.None? || |notation.value| != 2
    ensures r.Ok? ==> InRange(r.value.row, r.value.column)
    ensures r.Ok? ==> r.value.notation == ConvertToAlgebraic(r.value.row, r.value.column)
    ensures r.Ok? ==> r.value.notation == ToLower(notation.value)
  {
    if notation.None? || |notation.value| == 0 || |notation.value| != 2 then Err(InvalidNotation)
    else
      var lower := ToLower(notation.value);
      var column := (lower[0] as int) - ('a' as int);
      var row := (lower[1] as int) - ('0' as int);
      if row < 1 || row > 8 || column < 0 || column > 7 then Err(OffBoard)
      else Ok(ChessPosition(row, column, lower))
  }

  function ToString(p: ChessPosition): string
  {
    p.notation
  }

  /** `Equals`: same row and same column; the stored text is not compared. */
  predicate Equals(a: ChessPosition, b: ChessPosition)
  {
    a.row == b.row && a.column == b.column
  }

  /** `GetHashCode`: row * 10 + column. */
  function HashCode(p: ChessPosition): int
  {
    p.row * 10 + p.column
  }

  /** Printing a constructed position and parsing the text yields an equal position with the same text. */
  lemma ParsePrintRoundTrip(row: int, column: int)
    requires InRange(row, column)
    ensures Parse(Some(ToString(NewChessPosition(row, column).value))) == NewChessPosition(row, column)
  {
    var s := ConvertToAlgebraic(row, column);
    assert ToLower(s) == s;
  }

  /**
   * A text is accepted exactly when it is a file letter in either case followed by a rank
   * digit 1..8; every other two-character text is off the board.
   */
  lemma ParseAcceptsExactly(s: string)
    ensures Parse(Some(s)).Ok? <==> |s| == 2 && 'a' <= LowerChar(s[0]) <= 'h' && '1' <= s[1] <= '8'
    ensures Parse(Some(s)).Err? && |s| == 2 ==> Parse(Some(s)).error == OffBoard
  {
  }

  /** Upper-case input is read as its lower-case form and stored lower-cased. */
  lemma ParseExamples()
    ensures Parse(Some("E4")) == Ok(ChessPosition(4, 4, "e4"))
    ensures Parse(Some("h8")) == Ok(ChessPosition(8, 7, "h8"))
    ensures Parse(Some("i1")) == Err(OffBoard)
    ensures Parse(Some("e10")) == Err(InvalidNotation)
  {
    assert ToLower("E4") == "e4";
    assert ToLower("h8") == "h8";
    assert ToLower("i1") == "i1";
  }

  /** Equals is an equivalence relation. */
  lemma EqualsIsEquivalence(a: ChessPosition, b: ChessPosition, c: ChessPosition)
    ensures Equals(a, a)
    ensures Equals(a, b) ==> Equals(b, a)
    ensures Equals(a, b) && Equals(b, c) ==> Equals(a, c)
  {
  }

  /** Equal positions hash alike; on the board's range the hash separates unequal positions. */
  lemma HashAgreesWithEquals(a: ChessPosition, b: ChessPosition)
    ensures Equals(a, b) ==> HashCode(a) == HashCode(b)
    ensures InRange(a.row, a.column) && InRange(b.row, b.column) ==>
              (HashCode(a) == HashCode(b) <==> Equals(a, b))
  {
  }
}

=== FILE: enums.dfy ===
/** The engine's three enumerations: piece colour, piece kind and game status. */
module Enums {

  datatype Color = White | Black

  /** The six kinds of chessmen, in the source's declaration order. */
  datatype PieceKind = Pawn | Rook | Knight | Bishop | Queen | King

  /** Game states. `Stalmate` keeps the source's spelling. */
  datatype GameStatus =
    | InProgress
    | WhiteCheck
    | BlackCheck
    | WhiteCheckMate
    | BlackCheckMate
    | Stalmate
    | Draw

  /** The side that moves after `c`; this is how turns and "enemy" colours are derived. */
  function Opponent(c: Color): (r: Color)
    ensures r != c
  {
    if c == White then Black else White
  }

  /** With only two colours, taking the opponent twice gives back the colour itself. */
  lemma OpponentInvolution(c: Color)
    ensures Opponent(Opponent(c)) == c
  {
  }

  /** The statuses in which a move may still be attempted. */
  predicate IsActive(s: GameStatus)
  {
    s == InProgress || s == WhiteCheck || s == BlackCheck
  }

  /** Exactly three of the seven statuses are active; the other four end the game. */
  lemma ActiveStatuses()
    ensures (set s: GameStatus | IsActive(s)) == {InProgress, WhiteCheck, BlackCheck}
    ensures forall s: GameStatus :: !IsActive(s) <==> s in {WhiteCheckMate, BlackCheckMate, Stalmate, Draw}
  {
    var all := set s: GameStatus | IsActive(s);
    forall s: GameStatus ensures s in all <==> s in {InProgress, WhiteCheck, BlackCheck} {
    }
  }
}

=== FILE: moves.dfy ===
/**
 * The move record (ChessApp.Core/Models/Move.cs) with its notation, and the outcome of a move
 * attempt (ChessApp.Core/Models/MoveResult.cs).
 *
 * The flags IsCastling, IsPromotion, PromotedPieceType, IsEnPassant, IsCheck and IsCheckmate
 * are assigned by ChessGame but are not declared in Move.cs; they are plain fields here.
 */
module Moves {
  import opened Wrappers
  import opened Enums
  import opened Positions
  import opened Pieces
  import opened Text

  datatype Move = Move(
    from: Square,
    to: Square,
    piece: Piece,
    captured: Option<Piece>,
    notation: string,
    isCastling: bool,
    isPromotion: bool,
    promotedKind: Option<PieceKind>,
    isEnPassant: bool,
    isCheck: bool,
    isCheckmate: bool)

  /** Move.ToAlgebraicNotation: the destination alone for a pawn, else the piece symbol then the destination. */
  function ToAlgebraicNotation(kind: PieceKind, to: Square): (s: string)
    ensures |s| == (if kind == Pawn then 2 else 3)
    ensures s[|s| - 2..] == Positions.ToString(to)
  {
    Symbol(kind) + Positions.ToString(to)
  }

  /**
   * The Move constructor: stores the squares, the piece and the captured piece as given and
   * fixes the notation once; every flag starts cleared.
   */
  function NewMove(from: Square, to: Square, piece: Piece, captured: Option<Piece>): (m: Move)
    ensures m.from == from && m.to == to && m.piece == piece && m.captured == captured
    ensures m.notation == ToAlgebraicNotation(piece.kind, to)
    ensures !m.isCastling && !m.isPromotion && m.promotedKind.None? && !m.isEnPassant
    ensures !m.isCheck && !m.isCheckmate
  {
    Move(from, to, piece, captured, ToAlgebraicNotation(piece.kind, to),
         false, false, None, false, false, false)
  }

  /** Move.ToString: the notation stored at construction. */
  function MoveString(m: Move): string
  {
    m.notation
  }

  /** Setting the flags afterwards never changes the stored notation. */
  lemma FlagsKeepNotation(from: Square, to: Square, piece: Piece, captured: Option<Piece>,
                          castling: bool, promotion: bool, promoted: Option<PieceKind>,
                          enPassant: bool, check: bool, mate: bool)
    ensures var m := NewMove(from, to, piece, captured).(isCastling := castling, isPromotion := promotion,
                       promotedKind := promoted, isEnPassant := enPassant, isCheck := check, isCheckmate := mate);
            MoveString(m) == ToAlgebraicNotation(piece.kind, to)
  {
  }

  /** Reads a notation string back into the moving kind and the destination. */
  function ReadNotation(s: string): Option<(PieceKind, Square)>
  {
    if |s| == 2 then
      match Positions.Parse(Some(s))
      case Ok(to) => Some((Pawn, to))
      case Err(_) => None
    else if |s| == 3 then
      match (KindOfSymbol(s[..1]), Positions.Parse(Some(s[1..])))
      case (Some(kind), Ok(to)) => if kind == Pawn then None else Some((kind, to))
      case _ => None
    else None
  }

  /** The notation determines the moving kind and the destination: reading it back gives both. */
  lemma NotationRoundTrip(kind: PieceKind, to: Square)
    ensures ReadNotation(ToAlgebraicNotation(kind, to)) == Some((kind, to))
  {
    var s := ToAlgebraicNotation(kind, to);
    var sq := Positions.ToString(to);
    ParsePrintRoundTrip(to);
    ToLowerIdempotent(sq);
    if kind == Pawn {
      assert s == sq;
    } else {
      assert s[..1] == Symbol(kind);
      assert s[1..] == sq;
      SymbolRoundTrip(kind);
    }
  }

  /** Two moves with the same notation move the same kind to the same square. */
  lemma NotationInjective(k1: PieceKind, t1: Square, k2: PieceKind, t2: Square)
    requires ToAlgebraicNotation(k1, t1) == ToAlgebraicNotation(k2, t2)
    ensures k1 == k2 && t1 == t2
  {
    NotationRoundTrip(k1, t1);
    NotationRoundTrip(k2, t2);
  }

  /** The characters the notation may contain: piece letters, files and ranks. */
  predicate NotationChar(c: char)
  {
    c in "RNBQK" || 'a' <= c <= 'h' || '1' <= c <= '8'
  }

  /**
   * No capture mark, check or mate sign, promotion sign or castling "O" ever appears, so this
   * is not the Standard Algebraic Notation of section 8.2.3 of the PGN standard.
   */
  lemma NotationAlphabet(kind: PieceKind, to: Square)
    ensures forall i | 0 <= i < |ToAlgebraicNotation(kind, to)| :: NotationChar(ToAlgebraicNotation(kind, to)[i])
    ensures forall c | c in "x+#=O-" :: c !in ToAlgebraicNotation(kind, to)
  {
    var s := ToAlgebraicNotation(kind, to);
    assert s[|s| - 2..] == Positions.ToString(to);
    assert s[|s| - 2] == Positions.ToString(to)[0];
    assert s[|s| - 1] == Positions.ToString(to)[1];
    assert kind != Pawn ==> s[0] == Symbol(kind)[0];
    forall i | 0 <= i < |s| ensures NotationChar(s[i]) {
    }
  }

  /** The outcome of ChessGame.AttemptMove: success flag, message, and the move when one was made. */
  datatype MoveResult = MoveResult(isSuccess: bool, message: string, move: Option<Move>)

  /** MoveResult.Success: a successful outcome carrying the message and the move made. */
  function Success(message: string, move: Move): (r: MoveResult)
    ensures r.isSuccess && r.message == message && r.move == Some(move)
  {
    MoveResult(true, message, Some(move))
  }

  /** MoveResult.Failure: a failed outcome carrying the message and no move. */
  function Failure(message: string): (r: MoveResult)
    ensures !r.isSuccess && r.message == message && r.move.None?
  {
    MoveResult(false, message, None)
  }

  /** The two factories never produce the same outcome, and only a success carries a move. */
  lemma FactoriesDisjoint(m1: string, mv: Move, m2: string)
    ensures Success(m1, mv) != Failure(m2)
    ensures Success(m1, mv).move.Some? && Failure(m2).move.None?
  {
  }
}

=== FILE: pgn.dfy ===
/**
 * The PGN export of a game (ChessApp.Core/Services/PgnService.cs): eleven header lines in the
 * order of the Seven Tag Roster (section 8.1.1 of the PGN standard) followed by four more tags,
 * an empty line, the numbered move list and the termination marker (section 8.2.6). Also the
 * import stub, which ignores its text.
 *
 * Today's date, which the source reads from the clock when the metadata has no date, is a
 * parameter. AppendLine writes "\n".
 */
module PgnService {
  import opened Wrappers
  import opened ChessGame

  /** PgnMetadata: every field may be null, which `None` stands for. */
  datatype PgnMetadata = PgnMetadata(
    event: Option<string>,
    site: Option<string>,
    date: Option<string>,
    round: Option<string>,
    whitePlayer: Option<string>,
    blackPlayer: Option<string>,
    result: Option<string>,
    whiteElo: Option<string>,
    blackElo: Option<string>,
    ecoCode: Option<string>,
    opening: Option<string>)

  /** The property initialisers of PgnMetadata, with `today` for the creation date. */
  function DefaultMetadata(today: string): PgnMetadata
  {
    PgnMetadata(Some("Casual Game"), Some("ChessApp"), Some(today), Some("?"), Some("White"), Some("Black"),
                Some("*"), Some("?"), Some("?"), Some("?"), Some("?"))
  }

  /**
   * ChessGame.GetPgnMetadata: the initial values, except the player names, the date the game
   * started (a parameter, as the clock is) and the game's own result token.
   */
  function GetPgnMetadata(g: Game, startDate: string): (m: PgnMetadata)
    ensures m.whitePlayer == Some(g.whitePlayer) && m.blackPlayer == Some(g.blackPlayer)
    ensures m.date == Some(startDate) && m.result == Some(GetPgnResult(g.status))
    ensures m.event == Some("Casual Game") && m.site == Some("ChessApp") && m.round == Some("?")
    ensures m.whiteElo == Some("?") && m.blackElo == Some("?") && m.ecoCode == Some("?") && m.opening == Some("?")
  {
    DefaultMetadata(startDate).(whitePlayer := Some(g.whitePlayer), blackPlayer := Some(g.blackPlayer),
                                date := Some(startDate), result := Some(GetPgnResult(g.status)))
  }

  /** A metadata record whose every field is null. */
  function EmptyMetadata(): PgnMetadata
  {
    PgnMetadata(None, None, None, None, None, None, None, None, None, None, None)
  }

  /** C#'s `a ?? b`. */
  function OrElse(a: Option<string>, b: string): (r: string)
    ensures a.Some? ==> r == a.value
    ensures a.None? ==> r == b
  {
    match a
    case Some(v) => v
    case None => b
  }

  /** The header keys in the order ExportToPgn writes them. */
  const RosterKeys: seq<string> :=
    ["Event", "Site", "Date", "Round", "White", "Black", "Result", "WhiteElo", "BlackElo", "ECO", "Opening"]

  /** The result written both as the Result header and as the termination marker. */
  function ResultValue(g: Game, m: PgnMetadata): string
  {
    OrElse(m.result, GetPgnResult(g.status))
  }

  /** The header values, key by key: the metadata's value, or the fallback when it is null. */
  function HeaderValues(g: Game, m: PgnMetadata, today: string): (vs: seq<string>)
    ensures |vs| == |RosterKeys|
    ensures vs[6] == ResultValue(g, m)
  {
    [ OrElse(m.event, "?"), OrElse(m.site, "?"), OrElse(m.date, today), OrElse(m.round, "?"),
      OrElse(m.whitePlayer, g.whitePlayer), OrElse(m.blackPlayer, g.blackPlayer), ResultValue(g, m),
      OrElse(m.whiteElo, "?"), OrElse(m.blackElo, "?"), OrElse(m.ecoCode, "?"), OrElse(m.opening, "?") ]
  }

  /**
   * With every field null the headers fall back to "?", today's date, the game's player names
   * and the game's result token.
   */
  lemma NullMetadataFallbacks(g: Game, today: string)
    ensures HeaderValues(g, EmptyMetadata(), today)
            == ["?", "?", today, "?", g.whitePlayer, g.blackPlayer, GetPgnResult(g.status), "?", "?", "?", "?"]
  {
  }

  /**
   * A metadata record left at its initial values reports the result "*" whatever the status of
   * the game, because its Result field is "*" rather than null.
   */
  lemma DefaultMetadataHidesResult(g: Game, today: string)
    ensures ResultValue(g, DefaultMetadata(today)) == "*"
    ensures HeaderValues(g, DefaultMetadata(today), today)
            == ["Casual Game", "ChessApp", today, "?", "White", "Black", "*", "?", "?", "?", "?"]
  {
  }

  /**
   * Exporting with the game's own metadata writes the game's result token and player names,
   * and the start date rather than today's.
   */
  lemma OwnMetadataHeaders(g: Game, startDate: string, today: string)
    ensures var vs := HeaderValues(g, GetPgnMetadata(g, startDate), today);
            && ResultValue(g, GetPgnMetadata(g, startDate)) == GetPgnResult(g.status)
            && vs[2] == startDate && vs[4] == g.whitePlayer && vs[5] == g.blackPlayer
            && vs == HeaderValues(g, EmptyMetadata(), startDate)[0 := "Casual Game"][1 := "ChessApp"]
  {
  }

  // ---------------------------------------------------------------- header lines

  /** AddPgnHeader: one line `[Key "Value"]`; the value is inserted verbatim, quotes included. */
  function AddPgnHeader(key: string, value: string): string
  {
    "[" + key + " \"" + value + "\"]\n"
  }

  /** The header lines for the given key-value pairs, in order. */
  function Headers(pairs: seq<(string, string)>): string
    decreases |pairs|
  {
    if |pairs| == 0 then "" else AddPgnHeader(pairs[0].0, pairs[0].1) + Headers(pairs[1..])
  }

  /** The position of the first `c` in `s`, if any. */
  function IndexOf(s: string, c: char): (r: Option<nat>)
    ensures r.Some? ==> r.value < |s| && s[r.value] == c && c !in s[..r.value]
    ensures r.None? ==> c !in s
    decreases |s|
  {
    if |s| == 0 then None
    else if s[0] == c then Some(0)
    else match IndexOf(s[1..], c)
      case None => None
      case Some(i) =>
        assert s[..i + 1] == [s[0]] + s[1..][..i];
        Some(i + 1)
  }

  /** Reads one header line back: the key up to the first space, the value between the quotes. */
  function ReadHeader(line: string): Option<(string, string)>
  {
    if |line| >= 5 && line[0] == '[' && line[|line| - 3..] == "\"]\n" then
      var inner := line[1..|line| - 3];
      match IndexOf(inner, ' ')
      case None => None
      case Some(sp) =>
        var rest := inner[sp + 1..];
        if |rest| >= 1 && rest[0] == '"' then Some((inner[..sp], rest[1..])) else None
    else None
  }

  /** Reads header lines from the front of `s` while they parse; returns them and the rest. */
  function ReadHeaders(s: string): (seq<(string, string)>, string)
    decreases |s|
  {
    if |s| > 0 && s[0] == '[' then
      match IndexOf(s, '\n')
      case None => ([], s)
      case Some(n) =>
        match ReadHeader(s[..n + 1])
        case None => ([], s)
        case Some(h) =>
          var (hs, rest) := ReadHeaders(s[n + 1..]);
          ([h] + hs, rest)
    else ([], s)
  }

  /** A key the reader can find again: no space and no line break. */
  predicate PlainKey(key: string)
  {
    ' ' !in key && '\n' !in key
  }

  /** A header line gives back its key and value, even when the value holds quotes or spaces. */
  lemma ReadHeaderRoundTrip(key: string, value: string)
    requires PlainKey(key)
    ensures ReadHeader(AddPgnHeader(key, value)) == Some((key, value))
  {
    var line := AddPgnHeader(key, value);
    var inner := line[1..|line| - 3];
    assert line[|line| - 3..] == "\"]\n";
    assert inner == key + " \"" + value;
    assert inner[|key|] == ' ';
    assert inner[..|key|] == key;
    assert IndexOf(inner, ' ') == Some(|key|);
    assert inner[|key| + 1..] == "\"" + value;
  }

  /** The keys paired with the values, position by position. */
  function Zip(keys: seq<string>, values: seq<string>): (r: seq<(string, string)>)
    requires |keys| == |values|
    ensures |r| == |keys|
    ensures forall i | 0 <= i < |r| :: r[i] == (keys[i], values[i])
  {
    seq(|keys|, i requires 0 <= i < |keys| => (keys[i], values[i]))
  }

  /** The eleven header pairs ExportToPgn writes. */
  function HeaderPairs(g: Game, m: PgnMetadata, today: string): (pairs: seq<(string, string)>)
    ensures |pairs| == 11
    ensures forall i | 0 <= i < 11 :: pairs[i] == (RosterKeys[i], HeaderValues(g, m, today)[i])
  {
    Zip(RosterKeys, HeaderValues(g, m, today))
  }

  /** The first line break of a header block followed by more text ends its first line. */
  lemma FirstLineOfHeader(key: string, value: string, tail: string)
    requires PlainKey(key) && '\n' !in value
    ensures var s := AddPgnHeader(key, value) + tail;
            IndexOf(s, '\n') == Some(|AddPgnHeader(key, value)| - 1)
  {
    var line := AddPgnHeader(key, value);
    var s := line + tail;
    assert s[..|line| - 1] == "[" + key + " \"" + value + "\"]";
    assert s[|line| - 1] == '\n';
  }

  /**
   * Header lines are read back in order, as the pairs written, as long as no key holds a space
   * or a line break and no value a line break, and the text after them does not start with '['.
   */
  lemma {:induction false} ReadHeadersRoundTrip(pairs: seq<(string, string)>, rest: string)
    requires forall i | 0 <= i < |pairs| :: PlainKey(pairs[i].0) && '\n' !in pairs[i].1
    requires |rest| == 0 || rest[0] != '['
    ensures ReadHeaders(Headers(pairs) + rest) == (pairs, rest)
    decreases |pairs|
  {
    if |pairs| == 0 {
      assert Headers(pairs) + rest == rest;
    } else {
      var line := AddPgnHeader(pairs[0].0, pairs[0].1);
      var tail := Headers(pairs[1..]) + rest;
      assert Headers(pairs) == line + Headers(pairs[1..]);
      Assoc(line, Headers(pairs[1..]), rest);
      ReadOneHeader(pairs[0].0, pairs[0].1, tail);
      ReadHeadersRoundTrip(pairs[1..], rest);
      assert pairs == [pairs[0]] + pairs[1..];
    }
  }

  /** Reading a header block consumes its first line and goes on with the rest. */
  lemma ReadOneHeader(key: string, value: string, tail: string)
    requires PlainKey(key) && '\n' !in value
    ensures ReadHeaders(AddPgnHeader(key, value) + tail)
            == ([(key, value)] + ReadHeaders(tail).0, ReadHeaders(tail).1)
  {
    var line := AddPgnHeader(key, value);
    var s := line + tail;
    assert s[0] == '[';
    FirstLineOfHeader(key, value, tail);
    assert s[..|line|] == line;
    assert s[|line|..] == tail;
    ReadHeaderRoundTrip(key, value);
  }

  // ---------------------------------------------------------------- the whole export

  /** The movetext: every entry followed by one space. */
  function MoveText(entries: seq<string>): string
    decreases |entries|
  {
    if |entries| == 0 then "" else entries[0] + " " + MoveText(entries[1..])
  }

  /** Appending one more entry to the movetext appends it with its space. */
  lemma {:induction false} MoveTextAppend(entries: seq<string>, e: string)
    ensures MoveText(entries + [e]) == MoveText(entries) + e + " "
    decreases |entries|
  {
    if |entries| == 0 {
      assert entries + [e] == [e];
      assert MoveText([e]) == e + " " + MoveText([]);
    } else {
      assert (entries + [e])[1..] == entries[1..] + [e];
      MoveTextAppend(entries[1..], e);
      assert MoveText(entries + [e]) == entries[0] + " " + (MoveText(entries[1..]) + e + " ");
      Regroup(entries[0] + " ", MoveText(entries[1..]), e, " ");
    }
  }

  /** A suffix of the second part is a suffix of the concatenation. */
  lemma SuffixOfConcat(a: string, b: string, k: nat)
    requires k <= |b|
    ensures (a + b)[|a + b| - k..] == b[|b| - k..]
  {
  }

  /** What follows the header lines: an empty line, the move list, then the result. */
  function PgnTail(g: Game, m: PgnMetadata): (tail: string)
    ensures |tail| >= 1 && tail[0] == '\n'
    ensures |tail| >= |ResultValue(g, m)| && tail[|tail| - |ResultValue(g, m)|..] == ResultValue(g, m)
  {
    var body := "\n" + MoveText(FormattedMoveHistory(g.history));
    assert (body + ResultValue(g, m))[|body|..] == ResultValue(g, m);
    body + ResultValue(g, m)
  }

  /**
   * ExportToPgn: the eleven header lines, an empty line, the move list with a space after each
   * entry, then the result. The text ends with the same result the Result header carries.
   */
  function ExportToPgn(g: Game, m: PgnMetadata, today: string): (pgn: string)
    ensures |pgn| >= |ResultValue(g, m)|
    ensures pgn[|pgn| - |ResultValue(g, m)|..] == ResultValue(g, m)
  {
    var headers := Headers(HeaderPairs(g, m, today));
    var tail := PgnTail(g, m);
    SuffixOfConcat(headers, tail, |ResultValue(g, m)|);
    headers + tail
  }

  /**
   * The export starts with exactly the eleven headers, keys in roster order, each with its
   * value, and the Result header holds the text the export ends with.
   */
  lemma ExportHeaders(g: Game, m: PgnMetadata, today: string)
    requires forall i | 0 <= i < |RosterKeys| :: '\n' !in HeaderValues(g, m, today)[i]
    ensures var (headers, rest) := ReadHeaders(ExportToPgn(g, m, today));
            && |headers| == 11
            && (forall i | 0 <= i < 11 :: headers[i].0 == RosterKeys[i])
            && headers[6] == ("Result", ResultValue(g, m))
            && rest == PgnTail(g, m)
  {
    var pairs := HeaderPairs(g, m, today);
    var tail := PgnTail(g, m);
    HeaderPairsReadable(g, m, today);
    ReadHeadersRoundTrip(pairs, tail);
    assert ExportToPgn(g, m, today) == Headers(pairs) + tail;
  }

  /** No roster key holds a space or a line break. */
  lemma RosterKeysPlain()
    ensures forall i | 0 <= i < |RosterKeys| :: PlainKey(RosterKeys[i])
  {
    forall i | 0 <= i < |RosterKeys| ensures PlainKey(RosterKeys[i]) {
      var k := RosterKeys[i];
      assert k in {"Event", "Site", "Date", "Round", "White", "Black", "Result", "WhiteElo", "BlackElo", "ECO", "Opening"};
    }
  }

  /** The export's pairs meet what the header reader needs when no value holds a line break. */
  lemma HeaderPairsReadable(g: Game, m: PgnMetadata, today: string)
    requires forall i | 0 <= i < |RosterKeys| :: '\n' !in HeaderValues(g, m, today)[i]
    ensures var pairs := HeaderPairs(g, m, today);
            forall i | 0 <= i < |pairs| :: PlainKey(pairs[i].0) && '\n' !in pairs[i].1
  {
    RosterKeysPlain();
  }

  /**
   * ExportToPgn as the source runs it, appending to one growing text: the header lines, the
   * empty line, each move-list entry and a space, then the result.
   */
  method BuildPgn(g: Game, m: PgnMetadata, today: string) returns (pgn: string)
    ensures pgn == ExportToPgn(g, m, today)
  {
    var headers := Headers(HeaderPairs(g, m, today));
    var entries := FormattedMoveHistory(g.history);
    var result := ResultValue(g, m);
    pgn := headers;
    pgn := pgn + "\n";
    pgn := AppendMoveText(pgn, entries);
    pgn := pgn + result;
    Regroup(headers, "\n", MoveText(entries), result);
  }

  /** Concatenation is associative. */
  lemma Assoc(a: string, b: string, c: string)
    ensures (a + b) + c == a + (b + c)
  {
  }

  /** Appending piece by piece builds the same text as appending the grouped tail. */
  lemma Regroup(a: string, b: string, c: string, d: string)
    ensures a + b + c + d == a + (b + c + d)
  {
  }

  /** The `foreach` of ExportToPgn: append every entry and a space after it. */
  method AppendMoveText(head: string, entries: seq<string>) returns (pgn: string)
    ensures pgn == head + MoveText(entries)
  {
    pgn := head;
    var i := 0;
    while i < |entries|
      invariant 0 <= i <= |entries|
      invariant pgn == head + MoveText(entries[..i])
    {
      MoveTextAppend(entries[..i], entries[i]);
      assert entries[..i + 1] == entries[..i] + [entries[i]];
      pgn := pgn + entries[i];
      pgn := pgn + " ";
      i := i + 1;
    }
    assert entries[..i] == entries;
  }

  /** ImportFromPgn: a fresh game with the default player names, whatever the text. */
  function ImportFromPgn(pgnString: string): (g: Game)
    ensures g == NewGame(DefaultWhitePlayer, DefaultBlackPlayer)
  {
    NewGame(DefaultWhitePlayer, DefaultBlackPlayer)
  }

  /** Importing never depends on the text, so importing an export loses every move. */
  lemma ImportIgnoresText(s: string, t: string, g: Game, m: PgnMetadata, today: string)
    ensures ImportFromPgn(s) == ImportFromPgn(t)
    ensures ImportFromPgn(ExportToPgn(g, m, today)).history == []
  {
  }
}

=== FILE: piece_rules.dfy ===
/**
 * Pseudo-legal movement of the five non-king pieces (ChessApp.Core/Pieces/Pawn.cs, Rook.cs,
 * Bishop.cs, Queen.cs, Knight.cs), the shared path test of Piece.cs, and the two board-only
 * conditions of castling from King.cs. None of these look at whether the mover's own king is
 * left in check; the king and the check scanner are in CheckValidator.
 */
module PieceRules {
  import opened Wrappers
  import opened Enums
  import opened Positions
  import opened Pieces
  import opened Boards

  function Abs(x: int): nat
  {
    if x < 0 then -x else x
  }

  /** Math.Sign. */
  function Sign(x: int): (s: int)
    ensures -1 <= s <= 1
    ensures (s == 0 <==> x == 0) && (s == 1 <==> x > 0)
  {
    if x > 0 then 1 else if x < 0 then -1 else 0
  }

  /** t * d for a unit step d in {-1, 0, 1}, written out so the solver sees linear arithmetic. */
  function Times(t: int, d: int): int
  {
    if d == 1 then t else if d == -1 then -t else 0
  }

  /** The square t unit steps of (dr, dc) away from `from`. */
  function Step(from: Position, dr: int, dc: int, t: int): Position
  {
    Position(from.row + Times(t, dr), from.column + Times(t, dc))
  }

  /** Same row, same column or same diagonal; the walk of IsPathClear only ends on such pairs. */
  predicate Aligned(from: Position, to: Position)
  {
    from.row == to.row || from.column == to.column || Abs(to.row - from.row) == Abs(to.column - from.column)
  }

  /** Number of unit steps from `from` to `to` along their common line. */
  function Distance(from: Position, to: Position): nat
  {
    if Abs(to.row - from.row) >= Abs(to.column - from.column) then Abs(to.row - from.row)
    else Abs(to.column - from.column)
  }

  /** The square t steps from `from` on the way to `to`. */
  function PathSquare(from: Position, to: Position, t: int): Position
  {
    Step(from, Sign(to.row - from.row), Sign(to.column - from.column), t)
  }

  /** Walking Distance steps in the sign direction arrives exactly at `to`, not earlier, never leaving the board. */
  lemma StepGeometry(from: Square, to: Square, t: int)
    requires Aligned(from, to)
    requires 0 <= t <= Distance(from, to)
    ensures var s := PathSquare(from, to, t);
            IsValidPosition(s) && (s == to <==> t == Distance(from, to))
  {
  }

  /** The loop of IsPathClear: visit the squares from step t on until `to` is reached. */
  function PathWalk(b: Board, from: Square, to: Square, t: nat): bool
    requires Aligned(from, to)
    requires 1 <= t <= Distance(from, to) || from == to
    decreases Distance(from, to) - t
  {
    var current := PathSquare(from, to, t);
    if current == to then true
    else
      StepGeometry(from, to, t);
      // new Position(current) cannot throw: an aligned walk stays between from and to.
      var square: Square := current;
      if GetPieceAt(b, square).Some? then false
      else PathWalk(b, from, to, t + 1)
  }

  /**
   * IsPathClear. The source only calls it on aligned squares (off-line pairs would walk off the
   * board and make `new Position` throw), so alignment is its precondition.
   */
  function IsPathClear(b: Board, from: Square, to: Square): bool
    requires Aligned(from, to)
  {
    PathWalk(b, from, to, 1)
  }

  /** Every square at a step strictly between 0 and the distance is empty. */
  predicate SquaresBetweenEmpty(b: Board, from: Square, to: Square)
  {
    forall t | 0 < t < Distance(from, to) :: GetPieceAt(b, PathSquare(from, to, t)).None?
  }

  lemma {:induction false} PathWalkEmpty(b: Board, from: Square, to: Square, t: nat)
    requires Aligned(from, to)
    requires 1 <= t <= Distance(from, to)
    ensures PathWalk(b, from, to, t) <==>
              forall u | t <= u < Distance(from, to) ::
                GetPieceAt(b, PathSquare(from, to, u)).None?
    decreases Distance(from, to) - t
  {
    StepGeometry(from, to, t);
    if t < Distance(from, to) {
      PathWalkEmpty(b, from, to, t + 1);
    }
  }

  /** IsPathClear holds exactly when every square strictly between the two ends is empty; the ends are not read. */
  lemma PathClearIff(b: Board, from: Square, to: Square)
    requires Aligned(from, to)
    ensures IsPathClear(b, from, to) <==> SquaresBetweenEmpty(b, from, to)
  {
    if from != to {
      PathWalkEmpty(b, from, to, 1);
    }
  }

  /** Neighbouring squares and a square with itself have nothing between them, so the path is clear. */
  lemma PathClearWhenAdjacent(b: Board, from: Square, to: Square)
    requires Aligned(from, to) && Distance(from, to) <= 1
    ensures IsPathClear(b, from, to)
  {
    PathClearIff(b, from, to);
  }

  /** The common destination test: the target square is empty or holds a piece of the other colour. */
  predicate DestinationOpen(b: Board, mover: Piece, to: Square)
  {
    GetPieceAt(b, to).None? || GetPieceAt(b, to).value.color != mover.color
  }

  // ---------------------------------------------------------------- Pawn

  /** +1 for White, -1 for Black. */
  function PawnDirection(c: Color): int
  {
    if c == White then 1 else -1
  }

  function PawnStartRow(c: Color): int
  {
    if c == White then 2 else 7
  }

  /** Pawn.IsValidMove. */
  predicate PawnMove(b: Board, pawn: Piece, from: Square, to: Square)
  {
    var direction := PawnDirection(pawn.color);
    var startRow := PawnStartRow(pawn.color);
    if to.column == from.column && to.row == from.row + direction then
      GetPieceAt(b, to).None?
    else if !pawn.hasMoved && from.row == startRow && to.column == from.column && to.row == from.row + 2 * direction then
      var intermediate: Square := Position(from.row + direction, from.column);
      GetPieceAt(b, intermediate).None? && GetPieceAt(b, to).None?
    else if Abs(to.column - from.column) == 1 && to.row == from.row + direction then
      var target := GetPieceAt(b, to);
      target.Some? && target.value.color != pawn.color
    else
      false
  }

  /** The four pawn cases, each as an if-and-only-if, and nothing else moves a pawn. */
  lemma PawnMoveCases(b: Board, pawn: Piece, from: Square, to: Square)
    ensures var d := PawnDirection(pawn.color);
            var dr := to.row - from.row;
            var dc := to.column - from.column;
            && (dc == 0 && dr == d ==> (PawnMove(b, pawn, from, to) <==> GetPieceAt(b, to).None?))
            && (dc == 0 && dr == 2 * d ==>
                  (PawnMove(b, pawn, from, to) <==>
                     !pawn.hasMoved && from.row == PawnStartRow(pawn.color)
                     && GetPieceAt(b, Position(from.row + d, from.column)).None? && GetPieceAt(b, to).None?))
            && (Abs(dc) == 1 && dr == d ==>
                  (PawnMove(b, pawn, from, to) <==> GetPieceAt(b, to).Some? && GetPieceAt(b, to).value.color != pawn.color))
            && (!(dc == 0 && (dr == d || dr == 2 * d)) && !(Abs(dc) == 1 && dr == d) ==> !PawnMove(b, pawn, from, to))
  {
  }

  /**
   * The three guards of Pawn.IsValidEnPassantCapture that precede the final comparison:
   * the capturing pawn stands on its fifth rank, moves one square diagonally forward onto an
   * empty square, and an enemy pawn stands beside it on the destination's column.
   */
  predicate EnPassantGuards(b: Board, pawn: Piece, from: Square, to: Square)
  {
    var direction := PawnDirection(pawn.color);
    var enPassantRow := if pawn.color == White then 5 else 4;
    if from.row != enPassantRow then false
    else if Abs(to.column - from.column) != 1 || to.row != from.row + direction then false
    else if GetPieceAt(b, to).Some? then false
    else
      var enemyPawn := GetPieceAt(b, Position(from.row, to.column));
      !(enemyPawn.None? || enemyPawn.value.kind != Pawn || enemyPawn.value.color == pawn.color)
  }

  /** The square of the pawn an en-passant capture removes: beside the capturer, on the destination's column. */
  function EnPassantVictimSquare(from: Square, to: Square): Square
  {
    Position(from.row, to.column)
  }

  /**
   * Pawn.IsValidEnPassantCapture as written. Its last step compares a freshly allocated Position
   * with the stored one through Object.Equals; Position does not override Equals, so this is a
   * reference comparison, and a new object is never the stored one: the result is always false.
   */
  predicate IsValidEnPassantCaptureAsWritten(b: Board, pawn: Piece, from: Square, to: Square, lastPawnDoubleMove: Option<Square>)
  {
    var freshObjectIsStoredObject := false;
    lastPawnDoubleMove.Some? && EnPassantGuards(b, pawn, from, to) && freshObjectIsStoredObject
  }

  /** The as-written test never accepts, whatever the board and the last double step. */
  lemma EnPassantAsWrittenNeverFires(b: Board, pawn: Piece, from: Square, to: Square, last: Option<Square>)
    ensures !IsValidEnPassantCaptureAsWritten(b, pawn, from, to, last)
  {
  }

  /**
   * Pawn.IsValidEnPassantCapture with the comparison the code evidently intends: the passed
   * pawn's square equals the last double-step destination as a value. The rest of the model uses this one.
   */
  predicate IsValidEnPassantCapture(b: Board, pawn: Piece, from: Square, to: Square, lastPawnDoubleMove: Option<Square>)
  {
    lastPawnDoubleMove.Some? && EnPassantGuards(b, pawn, from, to)
    && EnPassantVictimSquare(from, to) == lastPawnDoubleMove.value
  }

  /**
   * The input that shows the discrepancy: Black has just played d7-d5, a White pawn stands on
   * e5 and captures onto d6. The intended test accepts it; the test as written refuses it.
   */
  lemma EnPassantCounterexample()
    ensures var b := PlacePieceAt(PlacePieceAt(seq(64, _ => None), Some(Piece(White, Pawn, true)), Position(5, 5)),
                                  Some(Piece(Black, Pawn, true)), Position(5, 4));
            var last := Some(Position(5, 4));
            IsValidEnPassantCapture(b, Piece(White, Pawn, true), Position(5, 5), Position(6, 4), last)
            && !IsValidEnPassantCaptureAsWritten(b, Piece(White, Pawn, true), Position(5, 5), Position(6, 4), last)
  {
    var b0: Board := seq(64, _ => None);
    var b1 := PlacePieceAt(b0, Some(Piece(White, Pawn, true)), Position(5, 5));
    var b := PlacePieceAt(b1, Some(Piece(Black, Pawn, true)), Position(5, 4));
    assert GetPieceAt(b, Position(6, 4)) == None;
    assert GetPieceAt(b, Position(5, 4)) == Some(Piece(Black, Pawn, true));
  }

  /** What an accepted en-passant capture implies about the position. */
  lemma EnPassantShape(b: Board, pawn: Piece, from: Square, to: Square, last: Option<Square>)
    requires IsValidEnPassantCapture(b, pawn, from, to, last)
    ensures last == Some(EnPassantVictimSquare(from, to))
    ensures from.row == (if pawn.color == White then 5 else 4)
    ensures to.row == from.row + PawnDirection(pawn.color) && Abs(to.column - from.column) == 1
    ensures GetPieceAt(b, to).None?
    ensures var v := GetPieceAt(b, EnPassantVictimSquare(from, to));
            v.Some? && v.value.kind == Pawn && v.value.color != pawn.color
  {
  }

  /** Pawn.IsPromotionMove: White reaching row 8 or Black reaching row 1. */
  predicate IsPromotionMove(pawn: Piece, target: Square)
  {
    (pawn.color == White && target.row == 8) || (pawn.color == Black && target.row == 1)
  }

  /** A promotion square is the farthest rank in the pawn's direction of travel. */
  lemma PromotionIsFarRank(pawn: Piece, target: Square)
    ensures IsPromotionMove(pawn, target) <==> target.row == (if PawnDirection(pawn.color) == 1 then 8 else 1)
  {
  }

  /** Pawn.IsDoubleMove: geometry of the first two-square advance, with no occupancy check. */
  predicate IsDoubleMove(pawn: Piece, from: Square, to: Square)
  {
    var direction := PawnDirection(pawn.color);
    var startRow := PawnStartRow(pawn.color);
    !pawn.hasMoved && from.row == startRow && to.column == from.column && to.row == from.row + 2 * direction
  }

  /** A double move is exactly a legal two-square pawn advance minus the emptiness tests. */
  lemma DoubleMoveIsTwoSquareAdvance(b: Board, pawn: Piece, from: Square, to: Square)
    ensures IsDoubleMove(pawn, from, to) ==>
              (PawnMove(b, pawn, from, to) <==>
                 GetPieceAt(b, Position(from.row + PawnDirection(pawn.color), from.column)).None? && GetPieceAt(b, to).None?)
    ensures IsDoubleMove(pawn, from, to) ==> Abs(to.row - from.row) == 2 && !IsPromotionMove(pawn, to)
  {
  }

  // ---------------------------------------------------------------- Rook, Bishop, Queen, Knight

  /** Rook.IsValidMove. */
  predicate RookMove(b: Board, rook: Piece, from: Square, to: Square)
  {
    var isStraight := from.row == to.row || from.column == to.column;
    if !isStraight then false
    else if !IsPathClear(b, from, to) then false
    else DestinationOpen(b, rook, to)
  }

  /** A rook move: same row or column, nothing strictly between, destination empty or enemy. */
  lemma RookMoveIff(b: Board, rook: Piece, from: Square, to: Square)
    ensures RookMove(b, rook, from, to) <==>
              (from.row == to.row || from.column == to.column)
              && SquaresBetweenEmpty(b, from, to) && DestinationOpen(b, rook, to)
  {
    if from.row == to.row || from.column == to.column {
      PathClearIff(b, from, to);
    }
  }

  /** The rook test reads neither the flag nor the kind of the moving piece. */
  lemma RookIgnoresHasMoved(b: Board, rook: Piece, from: Square, to: Square, moved: bool)
    ensures RookMove(b, rook, from, to) == RookMove(b, rook.(hasMoved := moved), from, to)
  {
  }

  /**
   * Bishop.IsValidMove as written: the path test is inverted, so a diagonal move is accepted
   * only when something stands strictly between the two squares.
   */
  predicate BishopMove(b: Board, bishop: Piece, from: Square, to: Square)
  {
    var rowDiff := Abs(to.row - from.row);
    var colDiff := Abs(to.column - from.column);
    if rowDiff != colDiff then false
    else if IsPathClear(b, from, to) then false
    else DestinationOpen(b, bishop, to)
  }

  /** What the inverted test accepts: a diagonal with a blocked path and an open destination. */
  lemma BishopMoveIff(b: Board, bishop: Piece, from: Square, to: Square)
    ensures BishopMove(b, bishop, from, to) <==>
              Abs(to.row - from.row) == Abs(to.column - from.column)
              && !SquaresBetweenEmpty(b, from, to) && DestinationOpen(b, bishop, to)
  {
    if Abs(to.row - from.row) == Abs(to.column - from.column) {
      PathClearIff(b, from, to);
    }
  }

  /** Consequence of the inversion: a one-square diagonal step, or any diagonal with an empty path, is refused. */
  lemma BishopRefusesClearDiagonals(b: Board, bishop: Piece, from: Square, to: Square)
    requires Abs(to.row - from.row) == Abs(to.column - from.column)
    requires Distance(from, to) <= 1 || SquaresBetweenEmpty(b, from, to)
    ensures !BishopMove(b, bishop, from, to)
  {
    PathClearIff(b, from, to);
  }

  /** Queen.IsValidMove. */
  predicate QueenMove(b: Board, queen: Piece, from: Square, to: Square)
  {
    var rowDiff := Abs(to.row - from.row);
    var colDiff := Abs(to.column - from.column);
    var isStraight := from.row == to.row || from.column == to.column;
    var isDiagonal := rowDiff == colDiff;
    if !isStraight && !isDiagonal then false
    else if !IsPathClear(b, from, to) then false
    else DestinationOpen(b, queen, to)
  }

  /** A queen move: on a common line, nothing strictly between, destination empty or enemy. */
  lemma QueenMoveIff(b: Board, queen: Piece, from: Square, to: Square)
    ensures QueenMove(b, queen, from, to) <==>
              Aligned(from, to) && SquaresBetweenEmpty(b, from, to) && DestinationOpen(b, queen, to)
  {
    if Aligned(from, to) {
      PathClearIff(b, from, to);
    }
  }

  /** Every rook move is a queen move for a queen of the same colour on the same board. */
  lemma QueenCoversRook(b: Board, rook: Piece, queen: Piece, from: Square, to: Square)
    requires rook.color == queen.color
    requires RookMove(b, rook, from, to)
    ensures QueenMove(b, queen, from, to)
  {
  }

  /** Queen moves never take the knight's L-shape. */
  lemma QueenRefusesKnightJumps(b: Board, queen: Piece, from: Square, to: Square)
    requires (Abs(to.row - from.row) == 2 && Abs(to.column - from.column) == 1)
          || (Abs(to.row - from.row) == 1 && Abs(to.column - from.column) == 2)
    ensures !QueenMove(b, queen, from, to)
  {
  }

  /** Knight.IsValidMove. */
  predicate KnightMove(b: Board, knight: Piece, from: Square, to: Square)
  {
    var rowDiff := Abs(to.row - from.row);
    var colDiff := Abs(to.column - from.column);
    var isValidMove := (rowDiff == 2 && colDiff == 1) || (rowDiff == 1 && colDiff == 2);
    if !isValidMove then false
    else DestinationOpen(b, knight, to)
  }

  /** The knight reads only its destination: boards that agree there give the same answer, so it jumps. */
  lemma KnightJumps(b1: Board, b2: Board, knight: Piece, from: Square, to: Square)
    requires GetPieceAt(b1, to) == GetPieceAt(b2, to)
    ensures KnightMove(b1, knight, from, to) == KnightMove(b2, knight, from, to)
  {
  }

  /** No piece of these five kinds may stay put or land on a piece of its own colour. */
  lemma OwnDestinationRefused(b: Board, p: Piece, from: Square, to: Square)
    requires GetPieceAt(b, to).Some? && GetPieceAt(b, to).value.color == p.color
    ensures !PawnMove(b, p, from, to)
    ensures !RookMove(b, p, from, to) && !BishopMove(b, p, from, to)
    ensures !QueenMove(b, p, from, to) && !KnightMove(b, p, from, to)
  {
  }

  // ---------------------------------------------------------------- Castling, board-only part

  /** Column of the rook a two-column king move castles with: 8 towards h, 1 towards a. */
  function CastlingRookColumn(from: Square, to: Square): int
  {
    if to.column > from.column then 8 else 1
  }

  /** King.cs lines 49-54: an unmoved rook of the king's colour stands on the rook square. */
  predicate CastlingRookReady(b: Board, king: Piece, from: Square, to: Square)
  {
    var rook := GetPieceAt(b, Position(from.row, CastlingRookColumn(from, to)));
    !(rook.None? || rook.value.kind != Rook || rook.value.color != king.color || rook.value.hasMoved)
  }

  /** King.cs lines 56-62: every square strictly between the king and that rook is empty. */
  predicate CastlingPathEmpty(b: Board, from: Square, to: Square)
  {
    var rookColumn := CastlingRookColumn(from, to);
    forall col | 1 <= col <= 8 && ((from.column < col < rookColumn) || (rookColumn < col < from.column)) ::
      GetPieceAt(b, Position(from.row, col)).None?
  }

  /**
   * The early exit that ends the source's recursion: when the target of a two-column king move
   * is occupied by anything but a rook, the board-only castling conditions already fail.
   */
  lemma CastlingBlockedByOccupiedTarget(b: Board, king: Piece, from: Square, to: Square)
    requires from.row == to.row && Abs(to.column - from.column) == 2
    requires GetPieceAt(b, to).Some? && GetPieceAt(b, to).value.kind != Rook
    ensures !(CastlingRookReady(b, king, from, to) && CastlingPathEmpty(b, from, to))
  {
    if to.column != CastlingRookColumn(from, to) {
      assert GetPieceAt(b, Position(from.row, to.column)).Some?;
    }
  }

  /** On the queen side three squares must be empty, on the king side two (king on column 5). */
  lemma CastlingPathLength(b: Board, from: Square, to: Square)
    requires from.column == 5 && from.row == to.row
    ensures to.column == 3 ==> (CastlingPathEmpty(b, from, to) <==>
              GetPieceAt(b, Position(from.row, 2)).None? && GetPieceAt(b, Position(from.row, 3)).None?
              && GetPieceAt(b, Position(from.row, 4)).None?)
    ensures to.column == 7 ==> (CastlingPathEmpty(b, from, to) <==>
              GetPieceAt(b, Position(from.row, 6)).None? && GetPieceAt(b, Position(from.row, 7)).None?)
  {
  }
}

=== FILE: pieces.dfy ===
/**
 * The data every chessman carries (ChessApp.Core/Pieces/Piece.cs): colour, kind and the
 * "has moved" flag, plus the notation symbol. Pieces are values here; the per-kind movement
 * rules live in PieceRules and CheckValidator.
 */
module Pieces {
  import opened Wrappers
  import opened Enums

  datatype Piece = Piece(color: Color, kind: PieceKind, hasMoved: bool)

  /** The constructor of every piece class: the flag starts out false. */
  function NewPiece(color: Color, kind: PieceKind): (p: Piece)
    ensures p.color == color && p.kind == kind && !p.hasMoved
  {
    Piece(color, kind, false)
  }

  /** GetSymbol: the letter used in move notation; a pawn has none. */
  function Symbol(kind: PieceKind): (s: string)
    ensures |s| == (if kind == Pawn then 0 else 1)
  {
    match kind
    case Rook => "R"
    case Knight => "N"
    case Bishop => "B"
    case Queen => "Q"
    case King => "K"
    case Pawn => ""
  }

  /** Reads a notation symbol back into the kind it stands for. */
  function KindOfSymbol(s: string): (k: Option<PieceKind>)
    ensures k.Some? ==> |s| <= 1
  {
    if s == "" then Some(Pawn)
    else if s == "R" then Some(Rook)
    else if s == "N" then Some(Knight)
    else if s == "B" then Some(Bishop)
    else if s == "Q" then Some(Queen)
    else if s == "K" then Some(King)
    else None
  }

  /** Each kind has its own symbol: reading the symbol back recovers the kind. */
  lemma SymbolRoundTrip(kind: PieceKind)
    ensures KindOfSymbol(Symbol(kind)) == Some(kind)
  {
  }
}

=== FILE: positions.dfy ===
/**
 * The 1-based board coordinate the engine uses (ChessApp.Core/Models/Position.cs):
 * construction from numbers or from two-character algebraic text, and printing back.
 */
module Positions {
  import opened Wrappers
  import opened Text

  /** A coordinate as stored: row 1..8 is the rank (1 at White's side), column 1..8 is the file a..h. */
  datatype Position = Position(row: int, column: int)

  predicate InRange(row: int, column: int)
  {
    1 <= row <= 8 && 1 <= column <= 8
  }

  /** Board.IsValidPosition: both coordinates in 1..8, decided without reading the grid. */
  predicate IsValidPosition(p: Position)
  {
    InRange(p.row, p.column)
  }

  /** The coordinates the constructors can produce. */
  type Square = p: Position | IsValidPosition(p) witness Position(1, 1)

  /** The three ways construction throws. */
  datatype PositionError =
    | InvalidCoordinates   // numeric constructor given a row or column outside 1..8
    | InvalidNotation      // text that is null, empty or not exactly two characters
    | OffBoard             // two characters naming no square, such as "i9" or "a0"

  /** `new Position(row, column)`. */
  function NewPosition(row: int, column: int): (r: Result<Square, PositionError>)
    ensures r.Ok? <==> InRange(row, column)
    ensures r.Ok? ==> r.value.row == row && r.value.column == column
    ensures r.Err? ==> r.error == InvalidCoordinates
  {
    if row < 1 || row > 8 || column < 1 || column > 8 then Err(InvalidCoordinates)
    else Ok(Position(row, column))
  }

  /** File letter of a column: 1 is 'a', 8 is 'h'. */
  function ColumnLetter(column: int): (c: char)
    requires 1 <= column <= 8
    ensures 'a' <= c <= 'h' && (c as int) - ('a' as int) + 1 == column
  {
    (('a' as int) + (column - 1)) as char
  }

  /** ConvertToAlgebraic / ToString: the file letter followed by the rank number. */
  function ToString(p: Square): (s: string)
    ensures |s| == 2
    ensures 'a' <= s[0] <= 'h' && '1' <= s[1] <= '8'
    ensures (s[0] as int) - ('a' as int) + 1 == p.column && (s[1] as int) - ('0' as int) == p.row
  {
    [ColumnLetter(p.column)] + NatToString(p.row)
  }

  /**
   * `new Position(string)`; `None` is a null reference. The text is lower-cased, then the
   * first character gives the column and the second the row.
   */
  function Parse(notation: Option<string>): (r: Result<Square, PositionError>)
    ensures r == Err(InvalidNotation) <==> notation.None? || |notation.value| != 2
    ensures r.Ok? ==> ToString(r.value) == ToLower(notation.value)
  {
    if notation.None? || |notation.value| == 0 || |notation.value| != 2 then Err(InvalidNotation)
    else
      var lower := ToLower(notation.value);
      var column := (lower[0] as int) - ('a' as int) + 1;
      var row := (lower[1] as int) - ('0' as int);
      if row < 1 || row > 8 || column < 1 || column > 8 then Err(OffBoard)
      else Ok(Position(row, column))
  }

  /** Printing a square and parsing the text gives the square back. */
  lemma ParsePrintRoundTrip(p: Square)
    ensures Parse(Some(ToString(p))) == Ok(p)
  {
    var s := ToString(p);
    assert ToLower(s) == s;
  }

  /** Distinct squares print differently. */
  lemma PrintInjective(p: Square, q: Square)
    ensures ToString(p) == ToString(q) <==> p == q
  {
    if ToString(p) == ToString(q) {
      ParsePrintRoundTrip(p);
      ParsePrintRoundTrip(q);
    }
  }

  /** Parsing does not distinguish upper from lower case: "E4" names the same square as "e4". */
  lemma ParseIgnoresCase(s: string)
    ensures Parse(Some(s)) == Parse(Some(ToLower(s)))
  {
    ToLowerIdempotent(s);
  }

  /** The accepted texts are exactly a file letter (either case) followed by a rank digit 1..8. */
  lemma ParseAcceptsExactly(s: string)
    ensures Parse(Some(s)).Ok? <==> |s| == 2 && 'a' <= LowerChar(s[0]) <= 'h' && '1' <= s[1] <= '8'
    ensures Parse(Some(s)).Err? && |s| == 2 ==> Parse(Some(s)).error == OffBoard
  {
  }

  /** The source's examples: "E4" is row 4 column 5; "i9" and "a0" are off the board. */
  lemma ParseExamples()
    ensures Parse(Some("E4")) == Ok(Position(4, 5))
    ensures Parse(Some("i9")) == Err(OffBoard)
    ensures Parse(Some("a0")) == Err(OffBoard)
    ensures Parse(Some("")) == Err(InvalidNotation)
    ensures Parse(Some("e10")) == Err(InvalidNotation)
  {
    assert ToLower("E4") == "e4";
    assert ToLower("i9") == "i9";
    assert ToLower("a0") == "a0";
  }
}

=== FILE: text.dfy ===
/** Character and string helpers: decimal rendering of integers and ASCII lower-casing. */
module Text {

  predicate IsDigit(c: char) { '0' <= c <= '9' }

  function DigitChar(d: nat): (c: char)
    requires d < 10
    ensures IsDigit(c) && (c as int) - ('0' as int) == d
  {
    (('0' as int) + d) as char
  }

  /** Decimal text of a natural number, as `int.ToString()` renders it. */
  function NatToString(n: nat): (s: string)
    decreases n
  {
    if n < 10 then [DigitChar(n)] else NatToString(n / 10) + [DigitChar(n % 10)]
  }

  /** ASCII lower-casing of one character ('A'..'Z' to 'a'..'z'; everything else kept). */
  function LowerChar(c: char): (r: char)
    ensures 'A' <= c <= 'Z' ==> 'a' <= r <= 'z' && (r as int) - ('a' as int) == (c as int) - ('A' as int)
    ensures !('A' <= c <= 'Z') ==> r == c
  {
    if 'A' <= c <= 'Z' then ((c as int) - ('A' as int) + ('a' as int)) as char else c
  }

  /** `string.ToLower()` restricted to ASCII letters; the length never changes. */
  function ToLower(s: string): (r: string)
    ensures |r| == |s|
    ensures forall i | 0 <= i < |s| :: r[i] == LowerChar(s[i])
  {
    seq(|s|, i requires 0 <= i < |s| => LowerChar(s[i]))
  }

  /** Lower-casing twice is lower-casing once. */
  lemma ToLowerIdempotent(s: string)
    ensures ToLower(ToLower(s)) == ToLower(s)
  {
  }
}

=== FILE: wrappers.dfy ===
/** Failure-carrying datatypes shared by every module of the model. */
module Wrappers {

  /** A value that may be absent; stands for the source's nullable references. */
  datatype Option<+T> = None | Some(value: T)

  /** Either a value or the error the source would have thrown. */
  datatype Result<+T, +E> = Ok(value: T) | Err(error: E)
}
